=== FILE: README.md ===
# advanced-react-features, modelled in Dafny

The repository is a Next.js catalogue of React demos. It has no single
engine. Its logic is a set of small state updates inside the demo
components, and this project models that logic as pure Dafny functions over
immutable records:

- **List windowing.** The fixed-height and variable-height virtual lists
  (`Windowing`, `VirtualList`, `Performance`). Each computes which slice of
  a long list to render, where each rendered item sits, and the height of
  the scroll area. The variable-height list builds a prefix-sum table of
  item tops and finds the item at a pixel by binary search.
- **State machines and reducers.** The `idle / loading / success / error`
  fetch machine (`FetchMachine`). The `useReducer` counter and the memo
  demos (`HooksState`). The zustand counter, todo and cart stores
  (`Stores`). The `useAsync` status machine (`CustomHooks`).
- **Field validators.** The hand-written validators of the sign-up,
  accessible and imperative forms (`FormHandling`, `Accessibility`,
  `ImperativeForm`). The schema-driven registration form and multi-step
  form (`SchemaForms`). The regular expressions they use (`Patterns`).
- **Small list and index manipulators.**
  - Keyboard navigation of the menu and tabs (`Accessibility`).
  - Pagination and the animated list (`Animations`).
  - The kanban board (`TaskBoard`).
  - The accordion's open set (`Accordion`).
  - The theme context and the list/conditional demos (`Theme`).
  - The home page's category search (`Home`).

JavaScript behaviour the demos rely on is modelled once in `JsArray`
(`filter`, `slice`, `indexOf`, `reduce`-sum, `Math.max`), `JsString`
(`toLowerCase`, `includes`, `trim`, number-to-text) and `JsNumber`
(the truncating `%`). Randomness, clocks, promise outcomes, scroll offsets
and the schema library's e-mail check are parameters.

## Model

| member | source | states |
|---|---|---|
| Windowing.FixedRange | components/virtual-list-demo.tsx:58-59 | The start index is never negative, the end index never passes the last item, and an empty list gives end index -1 |
| Windowing.FixedRangeCovers | components/virtual-list-demo.tsx:58-59 | Every item that overlaps the viewport lies inside the computed range |
| Windowing.FixedVisibleItems | components/virtual-list-demo.tsx:59-61 | The slice `slice(startIndex, endIndex + 1)` is exactly items start..end, and it is empty when the range is empty |
| Windowing.OffsetInSlice | components/virtual-list-demo.tsx:122 | When items are distinct, `indexOf` finds the k-th rendered item at position k of the slice |
| Windowing.FixedWindow | components/virtual-list-demo.tsx:58-62 | The range stays in bounds, every rendered item comes from the list, each rendered item's top is (startIndex + k) times the row height, and every item overlapping the viewport is rendered |
| Windowing.FixedTopsAreOffsets | components/virtual-list-demo.tsx:122 | The top given to the k-th rendered item equals (startIndex + k) times the row height |
| Windowing.Positions | components/virtual-list-demo.tsx:162-167 | The top table starts at 0, and each top is the previous top plus the previous item's height |
| Windowing.PositionsArePrefixSums | components/virtual-list-demo.tsx:162-167 | Each item's top is the sum of the heights of the items above it |
| Windowing.PositionsNonDecreasing | components/virtual-list-demo.tsx:162-167 | Tops never decrease down the list |
| Windowing.PositionsIncreasing | components/virtual-list-demo.tsx:162-167 | With positive heights, tops strictly increase |
| Windowing.PositionsSorted | components/virtual-list-demo.tsx:162-167 | The top table is sorted, and strictly sorted when every height is positive |
| Windowing.TotalHeight | components/virtual-list-demo.tsx:169 | The total height exists exactly for a non-empty list and equals the sum of all heights |
| Windowing.FindItemIndexAtPosition | components/virtual-list-demo.tsx:172-188 | For a pixel at or below the first top, the result is the item whose top is at or above the pixel and whose successor's top is below it; otherwise the result is 0 |
| Windowing.IndexAtMonotone | components/virtual-list-demo.tsx:172-188 | The item found at a lower pixel is never after the item found at a higher pixel |
| Windowing.VariableRange | components/virtual-list-demo.tsx:190-191 | The range lies inside the list; for a non-negative scroll it runs from the item at the viewport's top pixel less the overscan (at least 0) to the item at its bottom pixel plus the overscan (at most the last index), those items being the ones the position search finds; every item overlapping the viewport is inside it |
| Windowing.AtViewportEdges | components/virtual-list-demo.tsx:190-191 | Names the two searched items: a is the item at `scrollTop`, b the item at `scrollTop + containerHeight` |
| Windowing.VariableWindow | components/virtual-list-demo.tsx:190-193 | The slice is items start..end, every rendered item comes from the list, and the k-th rendered item sits at the (startIndex + k)-th top |
| VirtualList.GenerateItems | components/virtual-list-demo.tsx:14-20 | Item i has id i and the i-th supplied height, and all items are distinct |
| VirtualList.FilterItems | components/virtual-list-demo.tsx:55 | An item is kept exactly when its lower-cased text contains the lower-cased query; order is kept, and the empty query keeps everything |
| VirtualList.FilterIgnoresCase | components/virtual-list-demo.tsx:55 | Two queries that lower-case alike select the same items |
| VirtualList.FilteredWindow | components/virtual-list-demo.tsx:55-62 | The window over the filtered list renders only matching items from the list, at their fixed-height tops, and every filtered row overlapping the viewport is rendered |
| VirtualList.FixedHeightList | components/virtual-list-demo.tsx:50-62 | With 40px rows, a 400px viewport and an overscan of 5, only matching items are rendered; the k-th rendered item is the filtered item at startIndex + k, placed at (startIndex + k) times 40; every filtered row overlapping the viewport is rendered |
| VirtualList.FixedTotalHeight | components/virtual-list-demo.tsx:62 | The scroll height is 40 times the number of matching items |
| VirtualList.VariableHeightList | components/virtual-list-demo.tsx:158-193 | The total height exists exactly for a non-empty list and is the sum of the heights; the range lies inside the list |
| VirtualList.VariableExample | components/virtual-list-demo.tsx:162-188 | Heights 50, 100, 75, 60, 90 give tops 0, 50, 150, 225, 285 and a total of 375, and pixels 160 and 210 fall in item 2 |
| Performance.VirtualizedList | components/categories/performance-optimization.tsx:243-255 | With 60px rows, only matching items are rendered, within the filtered list's bounds; the k-th rendered item is the filtered item at startIndex + k, placed at (startIndex + k) times 60; every filtered row overlapping the 400px viewport is rendered |
| Performance.VirtualizedTotalHeight | components/categories/performance-optimization.tsx:255 | The scroll height is 60 times the number of matching items |
| Performance.ExpensiveCalculation | components/categories/performance-optimization.tsx:568-575 | The million-step loop returns 1,000,000 times count |
| Performance.AboveThreshold | components/categories/performance-optimization.tsx:578-581 | An item is kept exactly when it is above the threshold, and the list comes back unchanged exactly when every item is above it |
| Performance.AboveThresholdKeepsOrder | components/categories/performance-optimization.tsx:578-581 | Filtering a concatenation filters each part, so order is kept |
| Performance.AddItem | components/categories/performance-optimization.tsx:584-586 | The list grows by one; the old items are kept and the new last item equals the new length |
| Performance.AddItemKeepsRange | components/categories/advanced-patterns.tsx:237-245 | Adding to 1..n gives 1..n+1, so the demo's list is always 1..length |
| Performance.RemoveAt | components/categories/performance-optimization.tsx:589-591 | An in-range index removes exactly that position; an out-of-range index changes nothing |
| Performance.SumOfRange | components/categories/performance-optimization.tsx:26-29 | The sum over 1..n is n(n+1)/2 |
| Performance.AddItemSum | components/categories/advanced-patterns.tsx:237-245 | Adding an item raises the sum by the new length |
| Performance.Fib | components/categories/performance-optimization.tsx:966-969 | fib(n) is n for every n at most 1 (so negative for negative n), never negative for n ≥ 0, and at least 1 from n = 2 on |
| Performance.FibMonotone | components/categories/performance-optimization.tsx:966-969 | fib never decreases on the naturals |
| Performance.FibIterative | components/categories/performance-optimization.tsx:966-969 | A bottom-up loop computes the same value as the recursive definition |
| FetchMachine.Transition | components/categories/state-machines.tsx:21-42 | idle leaves only on FETCH; loading goes to success on RESOLVE and to error on REJECT; success leaves only on FETCH; error leaves on RETRY or FETCH; every pair gives one of the four states |
| FetchMachine.TransitionFollowsDocumentedEdges | components/categories/state-machines.tsx:96-100 | The reducer moves exactly along the five displayed transitions and stays put otherwise |
| FetchMachine.OutcomeOnlyFromLoading | components/categories/state-machines.tsx:23-40 | success and error are entered only from loading |
| FetchMachine.OutcomeAfterLoading | components/categories/state-machines.tsx:19-40 | Any event sequence from idle that ends in success or error passes through loading |
| FetchMachine.Outcome | components/categories/advanced-patterns.tsx:67-71 | The settle resolves exactly when the captured count is even |
| FetchMachine.Step | components/categories/advanced-patterns.tsx:62-100 | Fetch is possible only outside loading and schedules a settle; Retry only sends RETRY; a settle applies its outcome and bumps the count |
| FetchMachine.StepKeepsConsistent | components/categories/advanced-patterns.tsx:62-100 | A settle is pending only while loading, and every available action keeps that |
| FetchMachine.FetchCycle | components/categories/advanced-patterns.tsx:63-74 | A fetch and its settle end in success exactly when the count was even, and raise the count by one |
| FetchMachine.FetchesAlternate | components/categories/advanced-patterns.tsx:63-74 | Two successive fetches end in opposite outcomes |
| FetchMachine.RetryGetsStuck | components/categories/advanced-patterns.tsx:92-100 | As written, Retry from error leaves a loading screen with no pending settle, where no action is available |
| FetchMachine.FixedStep | components/categories/advanced-patterns.tsx:62-100 | The intended Retry also schedules a settle; every other action is unchanged |
| FetchMachine.FixedStepKeepsLive | components/categories/advanced-patterns.tsx:62-100 | With the intended Retry, no reachable screen is stuck |
| FetchMachine.InitialScreenLive | components/categories/advanced-patterns.tsx:61 | The initial screen is live and not stuck |
| HooksState.Reduce | components/categories/hooks-and-state.tsx:516-538 | INCREMENT adds 1 and clears the error; DECREMENT at or below 0 keeps the count and sets the error, otherwise it subtracts 1; RESET and SET_COUNT set the count; only SET_LOADING changes loading; an unknown action changes nothing |
| HooksState.CountStaysNonNegative | components/categories/hooks-and-state.tsx:510-536 | From the initial state, any actions without SET_COUNT keep the count at or above 0 |
| HooksState.LoadingFollowsSetLoading | components/categories/hooks-and-state.tsx:518-536 | After any actions, the loading flag is the payload of the last SET_LOADING, or its old value if there was none |
| HooksState.IncrementThenDecrement | components/categories/hooks-and-state.tsx:518-524 | From a non-negative count, increment then decrement restores the state with the error cleared |
| HooksState.HandleSetCount | components/categories/hooks-and-state.tsx:543-551 | A value that is not a number reports "Please enter a valid number" and keeps the text box; a number becomes the count, clears the error and empties the box |
| HooksState.InvalidThenValid | components/categories/hooks-and-state.tsx:543-551 | A rejected entry changes only the error; setting a number afterwards replaces the count and clears that error |
| HooksState.StoreIncrement | components/categories/hooks-and-state.tsx:1041 | increment adds exactly 1 |
| HooksState.StoreDecrement | components/categories/hooks-and-state.tsx:1042 | decrement subtracts exactly 1, with no lower bound |
| HooksState.StoreReset | components/categories/hooks-and-state.tsx:1043 | reset returns the store to count 0 |
| HooksState.StoreIncrementBy | components/categories/hooks-and-state.tsx:1044 | incrementBy(v) adds v |
| HooksState.IncrementDecrementInverse | components/state-management-demo.tsx:26-27 | Increment and decrement undo each other in either order |
| HooksState.IncrementByIsRepeatedIncrement | components/state-management-demo.tsx:26-29 | incrementBy(n) equals n increments |
| HooksState.MemoList | components/categories/hooks-and-state.tsx:408-410 | The list is 1..count, and empty for a negative count |
| HooksState.MemoFilter | components/categories/hooks-and-state.tsx:433-436 | An item is kept exactly when it is above the filter value |
| HooksState.MemoFilterOfList | components/categories/hooks-and-state.tsx:408-436 | Filtering 1..count above v gives the run from max(1, v+1) to count |
| HooksState.MemoizedCalculation | components/categories/hooks-and-state.tsx:423-430 | The loop returns 1,000,000 plus count |
| Stores.AddTodo | components/state-management-demo.tsx:51-61 | One incomplete todo with the given text and id is appended, and the existing todos are unchanged |
| Stores.ToggleTodo | components/state-management-demo.tsx:62-65 | completed flips exactly on the todos with the id; ids and texts are kept |
| Stores.ToggleTwice | components/state-management-demo.tsx:62-65 | Toggling an id twice restores the list |
| Stores.RemoveTodo | components/state-management-demo.tsx:66-69 | No todo with the id remains, every other todo does, and removing an id no todo has leaves the list unchanged |
| Stores.ClearCompleted | components/state-management-demo.tsx:70-73 | Exactly the incomplete todos remain |
| Stores.RemovalsKeepOrder | components/state-management-demo.tsx:66-73 | Both removals keep the survivors in their original order |
| Stores.ClearCompletedIdempotent | components/state-management-demo.tsx:70-73 | Clearing twice equals clearing once |
| Stores.SubmitTodo | components/state-management-demo.tsx:257-263 | Blank text adds nothing and keeps the input; other text adds one todo and clears the input |
| Stores.BumpAll | components/state-management-demo.tsx:110-114 | Only the entry of the product gets one more unit |
| Stores.BumpAbsent | components/state-management-demo.tsx:110-114 | Bumping a product not in the cart changes nothing |
| Stores.BumpTotal | components/state-management-demo.tsx:132-134 | With unique ids, bumping a present product raises the unit total by one |
| Stores.BumpPresent | components/state-management-demo.tsx:105-120 | Bumping keeps the product present, keeps ids unique, and raises the unit total by one |
| Stores.AddItem | components/state-management-demo.tsx:105-120 | A present product gets one more unit and the cart keeps its length; an absent one is appended with quantity 1; ids stay unique and the unit total rises by one |
| Stores.RemoveItem | components/state-management-demo.tsx:121-124 | The product's entry is gone; every other entry remains and nothing else appears; a cart without the product is unchanged; unique product ids stay unique |
| Stores.UpdateQuantity | components/state-management-demo.tsx:125-130 | Every remaining entry has at least one unit; a quantity of 0 or less removes the product, otherwise its entry carries the new quantity; other entries with units are kept; every remaining entry is a cart entry or the product's entry with the new quantity; unique product ids stay unique |
| Stores.RemoveKeepsOrder | components/state-management-demo.tsx:121-124 | Removal acts on each part of a cart separately, so the remaining entries keep their order |
| Stores.UpdateKeepsOrder | components/state-management-demo.tsx:125-130 | A quantity update acts on each part of a cart separately, so the remaining entries keep their order |
| Stores.FilterKeepsUniqueIds | components/state-management-demo.tsx:121-130 | Filtering a cart whose product ids are unique keeps them unique |
| Stores.ClearCart | components/state-management-demo.tsx:131 | The cart is empty, with unit and price totals 0 |
| Stores.AddNewItemPrice | components/state-management-demo.tsx:132-137 | Adding an absent product raises the total price by its price |
| FormHandling.FirstFailure | components/categories/form-handling.tsx:320-330 | The message reported is that of the first failing rule, and there is none when all rules pass |
| FormHandling.FieldError | components/categories/form-handling.tsx:302-350 | A reported message is never empty |
| FormHandling.FieldAccepts | components/categories/form-handling.tsx:306-337 | Username passes exactly with 3 or more characters; email exactly when it matches the pattern; password exactly with 8 or more characters, an upper-case letter and a digit; the confirmation exactly when it is non-empty and equals the password; unknown names always pass |
| FormHandling.PasswordFirstFailure | components/categories/form-handling.tsx:320-330 | The password's message is that of the first failing rule among required, length, upper-case and digit |
| FormHandling.FieldMessages | components/categories/form-handling.tsx:306-337 | The username, email and confirmation messages are each the first failure of that field's ordered rule list: required, then length, pattern or match |
| FormHandling.ValidateField | components/categories/form-handling.tsx:338-349 | The result is true exactly when there is no message; a failure records its message under the field name, and a pass leaves the map alone |
| FormHandling.ValidateAll | components/categories/form-handling.tsx:302-349 | Validating several fields succeeds exactly when each passes; every failing field gets an entry, and other entries are kept |
| FormHandling.ValidateForm | components/categories/form-handling.tsx:302-349 | The whole form is valid exactly when all four field rules hold, and an invalid form leaves at least one error |
| FormHandling.HandleChange | components/categories/form-handling.tsx:276-291 | Only the named field changes; that field's error goes when it was non-empty; other errors are kept |
| FormHandling.BlankData | components/categories/form-handling.tsx:543-559 | The reset data holds exactly the nine fields, all empty |
| FormHandling.WizardStep | components/categories/form-handling.tsx:535-559 | Previous is offered only after step 1, Next only before step 3, Submit only on step 3; Next and Previous move one step; Submit resets to step 1 with blank data when the required username and password are filled, and otherwise changes nothing |
| FormHandling.FillThenSubmit | components/categories/form-handling.tsx:682-705 | On the last step, typing a username and a password and submitting starts over; submitting with a blank password changes nothing |
| FormHandling.WizardStepInRange | components/categories/form-handling.tsx:709-720 | The step stays in 1..3 under every offered action |
| FormHandling.NextThenPrevious | components/categories/form-handling.tsx:535-541 | Next then Previous returns to the same screen |
| FormHandling.MaxId | components/categories/form-handling.tsx:767 | The largest id is at least every id and is one of them |
| FormHandling.AddLine | components/categories/form-handling.tsx:766-769 | A blank line is appended whose id is 1 for an empty list and otherwise one more than the largest id: above every id and one more than some id; ids stay unique |
| FormHandling.RemoveLine | components/categories/form-handling.tsx:771-775 | With one line or none nothing changes; otherwise exactly the lines with the id go; ids stay unique and a non-empty list stays non-empty |
| FormHandling.OtherLinesUnique | components/categories/form-handling.tsx:771-775 | With unique ids, removing one id keeps ids unique and drops at most one line |
| FormHandling.ChangeLine | components/categories/form-handling.tsx:762-764 | Only the lines with the id change, and only in the named field |
| FormHandling.LineEditsKeepInvariant | components/categories/form-handling.tsx:752-775 | Add, remove and edit keep the ids unique and the list non-empty |
| Patterns.EmailExamples | components/categories/form-handling.tsx:316 | The unanchored e-mail pattern accepts addresses embedded in text and rejects ones missing the dot part, the local part, or with white space before the `@` |
| Patterns.ZipExamples | components/form-validation-demo.tsx:56 | The ZIP pattern accepts five digits with an optional four-digit suffix and rejects anything else shown |
| Accessibility.ItemKeyDown | components/categories/accessibility.tsx:460-488 | ArrowDown highlights (index + 1) mod 4, ArrowUp (index + 3) mod 4, Home 0 and End 3; other keys leave the highlight; Escape only closes; Enter and Space exactly select item index+1; focus never moves |
| Accessibility.MenuArrowsCycle | components/categories/accessibility.tsx:462-469 | When each press reaches the item just highlighted, ArrowDown then ArrowUp (and the reverse) return to the start, and four ArrowDowns come back round |
| Accessibility.MenuArrowDownStalls | components/categories/accessibility.tsx:460-465 | As written, a second ArrowDown highlights the same item as the first |
| Accessibility.RovingMenuKey | components/categories/accessibility.tsx:460-488 | The intended handler steps from the highlighted item and moves focus with it; non-navigation keys keep focus and highlight |
| Accessibility.RovingDownsAdvance | components/categories/accessibility.tsx:462-465 | With roving focus, n ArrowDowns advance the highlight by n places modulo 4 |
| Accessibility.RovingArrowsUndo | components/categories/accessibility.tsx:462-469 | With roving focus, ArrowDown and ArrowUp undo each other exactly, highlight, focus and open state alike |
| Accessibility.ButtonKeyDown | components/categories/accessibility.tsx:549-558 | ArrowDown opens a closed menu, Escape closes an open one, and nothing else changes |
| Accessibility.ButtonClick | components/categories/accessibility.tsx:546 | A click toggles the menu and keeps the highlight and the focus |
| Accessibility.FocusItem | components/categories/accessibility.tsx:577 | Focusing an item highlights it |
| Accessibility.TabKeyDown | components/categories/accessibility.tsx:817-835 | ArrowRight gives (tab + 1) mod 3 and ArrowLeft (tab + 2) mod 3, staying within 0..2; Home gives 0 and End gives 2; other keys keep the tab |
| Accessibility.TabsCycle | components/categories/accessibility.tsx:817-835 | Each arrow moves to another tab, two Right presses visit the other two tabs, Right and Left undo each other, and three presses either way come back |
| Accessibility.ValidationErrors | components/categories/accessibility.tsx:907-929 | name, email, password and confirmation are flagged exactly when empty, not e-mail-like, shorter than 8, and different from the password, each with the source's message ("… is required" for an empty field before the format or length message); nothing else is flagged |
| Accessibility.Validate | components/categories/accessibility.tsx:930-931 | The result is true exactly when the new error map is empty |
| Accessibility.ValidateAccepts | components/categories/accessibility.tsx:907-931 | The form validates exactly when every field is acceptable |
| Accessibility.ResetError | components/categories/accessibility.tsx:897-904 | A non-empty error of the field becomes the empty string; no key is added or removed; other errors are kept |
| Accessibility.HandleTextChange | components/categories/accessibility.tsx:891-905 | Each of the four text inputs sets only its own field, an unknown name sets none, the newsletter flag is kept, and only that field's error is reset |
| Accessibility.TextChangeRejudgesOnlyItsField | components/categories/accessibility.tsx:891-929 | After a text edit, only the checks that read the edited field can change their verdict, and the edited field's own check judges the new value |
| Accessibility.HandleCheckboxChange | components/categories/accessibility.tsx:891-905 | The checkbox stores `checked`, and no text field changes |
| SchemaForms.PasswordError | components/form-validation-demo.tsx:25-30 | There is no message exactly when all four checks pass; otherwise the message is that of the first failing check |
| SchemaForms.UsernameError | components/form-validation-demo.tsx:20-23 | The username is accepted exactly with 3 to 20 characters, and each bound has its own message |
| SchemaForms.Unless | components/form-validation-demo.tsx:24-38 | A single check reports its message exactly when it fails |
| SchemaForms.RegistrationAccepted | components/form-validation-demo.tsx:18-43 | The registration parses without issue exactly when every field rule holds, the bio is absent or at most 160 characters, terms is true and the passwords agree; a mismatch is reported under the confirmation exactly when the passwords differ |
| SchemaForms.ParsePersonal | components/form-validation-demo.tsx:46-50 | The personal step passes exactly with two-character names and a valid e-mail |
| SchemaForms.ParseAddress | components/form-validation-demo.tsx:52-57 | The address step passes exactly with the minimum lengths and a ZIP-like code |
| SchemaForms.ParseAccount | components/form-validation-demo.tsx:59-68 | The account step passes exactly with its minimum lengths and matching passwords; a mismatch is reported under the confirmation exactly when the passwords differ |
| SchemaForms.MultiStepStep | components/form-validation-demo.tsx:307-325 | A valid submit merges its step's fields and advances; an invalid one changes nothing; Back is offered on steps 2 and 3 and goes one step back |
| SchemaForms.InitialProgress | components/form-validation-demo.tsx:262 | The form starts on step 1 |
| SchemaForms.StepKeepsProgress | components/form-validation-demo.tsx:307-325 | The step stays in 1..3, and every passed step holds data its schema accepted |
| ImperativeForm.ValidationErrors | components/imperative-handle-demo.tsx:102-114 | Name is flagged exactly when empty and email exactly when not e-mail-like, each with its message; nothing else is flagged |
| ImperativeForm.Validate | components/imperative-handle-demo.tsx:102-117 | The result is true exactly when the name is non-empty and the e-mail is valid |
| ImperativeForm.Reset | components/imperative-handle-demo.tsx:98-101 | Both fields are blank and there are no errors |
| ImperativeForm.Submit | components/imperative-handle-demo.tsx:118-123 | The data is reported exactly when validation passes |
| ImperativeForm.HandleChange | components/imperative-handle-demo.tsx:129-141 | Only the named field changes, and only that field's non-empty error is removed |
| ImperativeForm.EditClearsOnlyThatError | components/imperative-handle-demo.tsx:129-141 | Editing the e-mail after a failed validation removes its error and keeps the name's |
| TaskBoard.Drop | components/drag-and-drop-demo.tsx:35-40 | Only the task with the dropped id takes the target status; ids, contents, order and count are kept; an unparsable id changes nothing |
| TaskBoard.AddTask | components/drag-and-drop-demo.tsx:42-48 | Blank text is a no-op; otherwise a todo task with the counter's id is appended, the counter advances and the input clears |
| TaskBoard.DeleteTask | components/drag-and-drop-demo.tsx:50-52 | No task with the id remains, every other task does, and the board shrinks exactly when some task has the id |
| TaskBoard.Column | components/drag-and-drop-demo.tsx:54-56 | A column holds exactly the tasks of its status |
| TaskBoard.ColumnsPartition | components/drag-and-drop-demo.tsx:54-56 | The three columns together hold each task exactly once |
| TaskBoard.InitialIdsFresh | components/drag-and-drop-demo.tsx:16-25 | The initial ids are distinct and below the counter's start of 6 |
| TaskBoard.OperationsKeepIdsFresh | components/drag-and-drop-demo.tsx:35-52 | Add, drop and delete keep ids distinct and below the counter |
| TaskBoard.FilterUniqueIds | components/drag-and-drop-demo.tsx:50-52 | Filtering a list with distinct ids keeps them distinct |
| Animations.Paginate | components/animations-demo.tsx:196-203 | An in-range move sets the page and records the direction; any other move is ignored; the page stays in range |
| Animations.ButtonsMatchPaginate | components/animations-demo.tsx:208-214 | A button is disabled exactly when its move would be ignored |
| Animations.NextThenPrevious | components/animations-demo.tsx:196-203 | Next then Previous returns to the same page |
| Animations.Ids | components/animations-demo.tsx:123 | The id list lists the items' ids in order |
| Animations.AddItem | components/animations-demo.tsx:121-127 | The new last item's id is `Math.max(0, ...ids) + 1`: at least 1, above every id, and either 1 or one more than some id; its label is "Item " followed by the new length; ids stay unique |
| Animations.RemoveItem | components/animations-demo.tsx:129-131 | No item with the id remains, and every other item does |
| Animations.RemoveKeepsUnique | components/animations-demo.tsx:129-131 | Removal keeps ids unique |
| Animations.LabelsCanRepeat | components/animations-demo.tsx:114-131 | Removing item 2 and adding one gives two items labelled "Item 3" |
| Accordion.Toggle | components/categories/ui-patterns.tsx:18-22 | An open id is removed with all its copies; a closed id is appended; other ids keep their membership |
| Accordion.ToggleTwice | components/categories/ui-patterns.tsx:18-22 | A toggle flips membership, and two toggles restore every id's membership |
| Accordion.ToggleKeepsDistinct | components/categories/ui-patterns.tsx:18-22 | An open list without repeats stays without repeats |
| CustomHooks.UseFormInput | components/custom-hooks-demo.tsx:13-14 | The value starts at the initial value |
| CustomHooks.OnChange | components/custom-hooks-demo.tsx:16-18 | The value becomes the input's value, and the initial value is kept |
| CustomHooks.ResetInput | components/custom-hooks-demo.tsx:23 | Reset restores the initial value |
| CustomHooks.ResetAfterEdits | components/custom-hooks-demo.tsx:13-25 | After any edits, reset gives the freshly created input |
| CustomHooks.EditsKeepInitial | components/custom-hooks-demo.tsx:16-18 | Edits never change the initial value |
| CustomHooks.Begin | components/custom-hooks-demo.tsx:77-80 | execute first enters pending with no value and no error |
| CustomHooks.Settle | components/custom-hooks-demo.tsx:82-88 | A response gives success with the value; a rejection gives error with the error |
| CustomHooks.ExecuteCoherent | components/custom-hooks-demo.tsx:77-89 | A settled execute holds a value only on success and an error only on failure, whatever came before |
| CustomHooks.Mount | components/custom-hooks-demo.tsx:92-96 | execute runs on mount exactly when immediate is set |
| Theme.ToggleTheme | components/context-demo.tsx:22-24 | light becomes dark, and anything else becomes light |
| Theme.ToggleTwice | components/categories/core-react-features.tsx:341-343 | Toggling twice is the identity exactly on light and dark |
| Theme.UseTheme | components/context-demo.tsx:30-36 | Without a provider the hook fails with its message; inside one it returns the provider value |
| Theme.AddEntry | components/categories/core-react-features.tsx:292-297 | Blank text changes nothing; otherwise exactly one entry is appended and the input clears |
| Theme.RemoveEntry | components/categories/core-react-features.tsx:299-301 | No entry with the id remains, every other entry does, and the list never grows |
| Theme.RemoveEntryIdempotent | components/categories/core-react-features.tsx:299-301 | Removing an id twice equals removing it once |
| Theme.ViewFor | components/categories/core-react-features.tsx:263-269 | admin gives full access, user gives limited access, and anything else is read-only |
| Home.FilterCategories | app/page.tsx:50-52 | A category is listed exactly when its lower-cased name contains the lower-cased query |
| Home.EmptyQueryListsAll | app/page.tsx:50-52 | The empty query lists every category in order |
| Home.EmptyQueryListsFourteen | app/page.tsx:28-52 | The empty query lists all fourteen categories |
| Home.FilterIgnoresCase | app/page.tsx:51 | Queries that lower-case alike give the same list |
| Home.Search | app/page.tsx:46-47 | Typing changes only the query, never the active category |
| Home.Select | app/page.tsx:101-105 | Picking a category changes only the active category |
| Home.ActiveCanBeFilteredOut | app/page.tsx:46-52 | A query can hide the active category while it stays active |

## Left out

- Network, persistence and timers are not modelled. The fetch machine's `setTimeout` callback is a separate `Settle` action, and the `useAsync` promise outcome is a parameter.
- Random item heights, the random fetch outcome and `Date.now()` ids are parameters. These appear at components/virtual-list-demo.tsx:18, components/categories/state-machines.tsx:54 and components/state-management-demo.tsx:55. The random-outcome demo in state-machines.tsx is modelled through `FetchMachine.Transition`. Its `Step` variant follows the deterministic demo in advanced-patterns.tsx.
- Cart prices are integer cents, not floating-point dollars.
- `toLowerCase` is modelled for ASCII letters only. String lengths count code points, not UTF-16 units.
- Zod's `.email()` check is the `isEmail` parameter of `SchemaForms`.
- The JSON text of the imperative form's submit message is left out. `ImperativeForm.Submit` returns the data itself.
- `Number.parseInt` of the dragged id is an `Option<int>`.
- The `role` field of the registration form is not checked. Its only rule fires on a missing value, and the form always supplies one.
- SchemaForms.RegistrationAccepted assumes the password-match refinement runs even when a field check has failed, and that one message per field is shown, the first failing check.
- The react-hook-form wiring between inputs and schemas is not modelled.
- DOM focus is left out, except where the menu's key handler reads it. Alerts and toasts are left out too.
- `useWindowSize`, `usePrevious` and overlapping `execute` calls of `useAsync` are not modelled.
- Duplicated logic is modelled once:
  - The fetch machine is the same in state-machines.tsx and advanced-patterns.tsx.
  - The zustand counter is the same in state-management-demo.tsx and hooks-and-state.tsx.
  - Pagination and the animated list are the same in animations-demo.tsx and animation-and-transitions.tsx.
  - The theme toggle is the same in context-demo.tsx and core-react-features.tsx.
  - The windowing maths is shared by the two virtual lists and the performance page.
- The memo demo's list is modelled as a function of `count`. The effect that copies it into state is not modelled.
- FormHandling.HandleChange models the sign-up form. The dynamic form's title and description inputs are plain field setters with no validation, and are not modelled separately.
- Performance.Fib: the argument is an integer, while `Number(e.target.value)` also yields fractions (fib(2.5) is 0.5 in the page); the numbers are unbounded, and the precision JavaScript doubles lose beyond fib(78) is not modelled.
- HooksState.Reduce: the SET_COUNT payload is an integer here, while `Number(inputValue)` also yields fractions, Infinity and -0; after a fractional SET_COUNT such as 0.5, DECREMENT passes the `count <= 0` guard and can reach a negative count, which this model cannot show. HooksState.HandleSetCount takes the result of `Number(...)` as an integer-or-NaN parameter for the same reason.
- HooksState.StoreIncrementBy: `incrementBy` receives a number, and its argument is an integer here.

## Findings

| source | as written | input that shows it | evidently intended | confidence | as-written member | corrected member |
|---|---|---|---|---|---|---|
| components/categories/advanced-patterns.tsx:92-100 | The Retry button only sends RETRY, which moves the machine to loading. No settle is scheduled, and Fetch is disabled while loading, so the demo stays in loading for good. components/categories/state-machines.tsx:81-89 has the same code. | Fetch twice from idle. The second fetch ends in error. Then press Retry. | Retry starts a request as Fetch does, so that loading always ends. | not executed | FetchMachine.RetryGetsStuck | FetchMachine.FixedStep, FetchMachine.FixedStepKeepsLive |
| components/categories/accessibility.tsx:460-465 | Arrow keys count from the index of the focused item, and focus never moves. Only `onFocus` at line 577 updates the highlight. Repeated ArrowDown presses therefore keep highlighting the same item. | Focus item 0, then press ArrowDown twice. Both presses highlight item 1. | Each ArrowDown moves the highlight and the focus on by one, as the tab strip at line 817 does with its state index. | not executed | Accessibility.MenuArrowDownStalls | Accessibility.RovingMenuKey, Accessibility.RovingDownsAdvance |

=== FILE: accessibility.dfy ===
/** The accessibility demos: the keyboard-navigable menu, the roving tab
    strip and the accessible sign-up form. Which menu item has DOM focus is
    part of the state here, since the menu's key handler reads it. */
module Accessibility {
  import opened Optional
  import opened JsNumber
  import opened Patterns

  datatype Key = ArrowDown | ArrowUp | ArrowLeft | ArrowRight | Home | End | Enter | Space | Escape | OtherKey

  // ---------------------------------------------------------------------
  // Menu
  // ---------------------------------------------------------------------

  const MenuSize := 4

  /** The highlighted item, whether the menu is open, and the item that
      holds focus (the one whose key handler runs). */
  datatype Menu = Menu(activeIndex: int, open: bool, focused: int)

  const InitialMenu: Menu := Menu(0, false, 0)

  /** `handleKeyDown(e, index)` on the item at `index`; Enter and Space
      report the item number `index + 1` as selected. Focus is not moved. */
  function ItemKeyDown(m: Menu, index: int, key: Key): (r: (Menu, Option<int>))
    ensures r.0.focused == m.focused
    ensures key == Escape ==> r.0 == m.(open := false)
    ensures key in {Home, End, ArrowDown, ArrowUp} ==> r.0.open == m.open
    ensures key !in {ArrowDown, ArrowUp, Home, End} ==> r.0.activeIndex == m.activeIndex
    ensures 0 <= index < MenuSize && key in {ArrowDown, ArrowUp, Home, End} ==> 0 <= r.0.activeIndex < MenuSize
    ensures key == ArrowDown ==> r.0.activeIndex == Rem(index + 1, MenuSize)
    ensures key == ArrowUp ==> r.0.activeIndex == Rem(index - 1 + MenuSize, MenuSize)
    ensures key == Home ==> r.0.activeIndex == 0
    ensures key == End ==> r.0.activeIndex == MenuSize - 1
    ensures r.1.Some? <==> key == Enter || key == Space
    ensures r.1.Some? ==> r.1.value == index + 1
  {
    match key
    case ArrowDown => (m.(activeIndex := Rem(index + 1, 4)), None)
    case ArrowUp => (m.(activeIndex := Rem(index - 1 + 4, 4)), None)
    case Home => (m.(activeIndex := 0), None)
    case End => (m.(activeIndex := 3), None)
    case Enter => (m, Some(index + 1))
    case Space => (m, Some(index + 1))
    case Escape => (m.(open := false), None)
    case _ => (m, None)
  }

  /** Keys reach the focused item's handler. */
  function MenuKey(m: Menu, key: Key): (Menu, Option<int>) {
    ItemKeyDown(m, m.focused, key)
  }

  /** The handler's arrow keys cycle round the menu when each press is
      handled by the item just highlighted: ArrowDown then ArrowUp (and the
      reverse) return to item i, and four ArrowDowns come back round. The
      menu as written does not hand the next press to that item (see
      `MenuArrowDownStalls`); `RovingArrowsUndo` states the same for the
      roving handler. */
  lemma MenuArrowsCycle(m: Menu, i: int)
    requires 0 <= i < MenuSize
    ensures var down := ItemKeyDown(m, i, ArrowDown).0;
      ItemKeyDown(down, down.activeIndex, ArrowUp).0.activeIndex == i
    ensures var up := ItemKeyDown(m, i, ArrowUp).0;
      ItemKeyDown(up, up.activeIndex, ArrowDown).0.activeIndex == i
    ensures var d1 := ItemKeyDown(m, i, ArrowDown).0;
      var d2 := ItemKeyDown(d1, d1.activeIndex, ArrowDown).0;
      var d3 := ItemKeyDown(d2, d2.activeIndex, ArrowDown).0;
      ItemKeyDown(d3, d3.activeIndex, ArrowDown).0.activeIndex == i
  {
  }

  /** As written, the handler counts from the focused item and never moves
      focus, so a second ArrowDown highlights the same item as the first:
      the highlight cannot get more than one step away from the focus. */
  lemma MenuArrowDownStalls(m: Menu)
    requires 0 <= m.focused < MenuSize
    ensures var once := MenuKey(m, ArrowDown).0;
      MenuKey(once, ArrowDown).0 == once && once.activeIndex == Rem(m.focused + 1, 4)
  {
  }

  /** The intended roving behaviour: step from the highlighted item and
      move focus along with it, as the item's focus handler expects. */
  function RovingMenuKey(m: Menu, key: Key): (r: (Menu, Option<int>))
    ensures key in {ArrowDown, ArrowUp, Home, End} ==> r.0.focused == r.0.activeIndex
    ensures key !in {ArrowDown, ArrowUp, Home, End} ==> r.0.focused == m.focused && r.0.activeIndex == m.activeIndex
    ensures key == ArrowDown && 0 <= m.activeIndex < MenuSize ==> r.0.activeIndex == Rem(m.activeIndex + 1, 4)
  {
    var (next, selected) := ItemKeyDown(m, m.activeIndex, key);
    if key in {ArrowDown, ArrowUp, Home, End} then (next.(focused := next.activeIndex), selected)
    else (next, selected)
  }

  /** With roving focus, ArrowDown and ArrowUp undo each other exactly:
      highlight, focus and open state all come back. */
  lemma RovingArrowsUndo(m: Menu)
    requires 0 <= m.activeIndex < MenuSize && m.focused == m.activeIndex
    ensures RovingMenuKey(RovingMenuKey(m, ArrowDown).0, ArrowUp).0 == m
    ensures RovingMenuKey(RovingMenuKey(m, ArrowUp).0, ArrowDown).0 == m
  {
  }

  /** n roving ArrowDowns. */
  function RovingDowns(m: Menu, n: nat): Menu
    decreases n
  {
    if n == 0 then m else RovingMenuKey(RovingDowns(m, n - 1), ArrowDown).0
  }

  /** With roving focus, n ArrowDowns advance the highlight by n places round
      the menu, so every item can be reached and four presses come back. */
  lemma {:induction false} RovingDownsAdvance(m: Menu, n: nat)
    requires 0 <= m.activeIndex < MenuSize
    ensures RovingDowns(m, n).activeIndex == (m.activeIndex + n) % 4
    ensures n > 0 ==> RovingDowns(m, n).focused == RovingDowns(m, n).activeIndex
    decreases n
  {
    if n > 0 {
      RovingDownsAdvance(m, n - 1);
      var prev := RovingDowns(m, n - 1);
      assert RovingDowns(m, n) == RovingMenuKey(prev, ArrowDown).0;
      StepRound(m.activeIndex + n - 1);
    }
  }

  /** One more step round the menu from a reduced index. */
  lemma StepRound(a: nat)
    ensures Rem(a % 4 + 1, 4) == (a + 1) % 4
  {
  }

  /** The menu button: ArrowDown opens a closed menu, Escape closes an open
      one, other keys do nothing; a click toggles. */
  function ButtonKeyDown(m: Menu, key: Key): (r: Menu)
    ensures r.activeIndex == m.activeIndex && r.focused == m.focused
    ensures r.open <==> (m.open && key != Escape) || (!m.open && key == ArrowDown)
  {
    if key == ArrowDown && !m.open then m.(open := true)
    else if key == Escape && m.open then m.(open := false)
    else m
  }

  function ButtonClick(m: Menu): (r: Menu)
    ensures r.open == !m.open && r.activeIndex == m.activeIndex && r.focused == m.focused
  {
    m.(open := !m.open)
  }

  /** Focusing an item highlights it. */
  function FocusItem(m: Menu, index: int): (r: Menu)
    ensures r.activeIndex == index && r.focused == index && r.open == m.open
  {
    m.(activeIndex := index, focused := index)
  }

  // ---------------------------------------------------------------------
  // Tabs
  // ---------------------------------------------------------------------

  /** The tab strip's key handler, which steps from the selected tab. */
  function TabKeyDown(activeTab: int, key: Key): (r: int)
    ensures 0 <= activeTab < 3 ==> 0 <= r < 3
    ensures key == ArrowRight ==> r == Rem(activeTab + 1, 3)
    ensures key == ArrowLeft ==> r == Rem(activeTab - 1 + 3, 3)
    ensures key == Home ==> r == 0
    ensures key == End ==> r == 2
    ensures key !in {ArrowLeft, ArrowRight, Home, End} ==> r == activeTab
  {
    match key
    case ArrowRight => Rem(activeTab + 1, 3)
    case ArrowLeft => Rem(activeTab - 1 + 3, 3)
    case Home => 0
    case End => 2
    case _ => activeTab
  }

  /** Each arrow moves to another tab, Right and Left undo each other, two
      Right presses visit the other two tabs, and three presses either way
      come back to the start. */
  lemma TabsCycle(t: int)
    requires 0 <= t < 3
    ensures TabKeyDown(t, ArrowRight) != t && TabKeyDown(t, ArrowLeft) != t
    ensures {t, TabKeyDown(t, ArrowRight), TabKeyDown(TabKeyDown(t, ArrowRight), ArrowRight)} == {0, 1, 2}
    ensures TabKeyDown(TabKeyDown(t, ArrowRight), ArrowLeft) == t
    ensures TabKeyDown(TabKeyDown(t, ArrowLeft), ArrowRight) == t
    ensures TabKeyDown(TabKeyDown(TabKeyDown(t, ArrowRight), ArrowRight), ArrowRight) == t
    ensures TabKeyDown(TabKeyDown(TabKeyDown(t, ArrowLeft), ArrowLeft), ArrowLeft) == t
  {
  }

  // ---------------------------------------------------------------------
  // Accessible form
  // ---------------------------------------------------------------------

  datatype AccessibleForm = AccessibleForm(
    name: string, email: string, password: string, confirmPassword: string, newsletter: bool)

  type Errors = map<string, string>

  /** The error map that `validate()` builds: each field is checked on its
      own, and a confirmation that differs from the password is flagged even
      when the password is empty. */
  function ValidationErrors(f: AccessibleForm): (r: Errors)
    ensures "name" in r <==> f.name == ""
    ensures "email" in r <==> !EmailLike(f.email)
    ensures "password" in r <==> |f.password| < 8
    ensures "confirmPassword" in r <==> f.password != f.confirmPassword
    ensures forall k :: k in r ==> k in FormFields
    ensures "name" in r ==> r["name"] == "Name is required"
    ensures "email" in r ==> r["email"] == (if f.email == "" then "Email is required" else "Email is invalid")
    ensures "password" in r ==>
      r["password"] == (if f.password == "" then "Password is required" else "Password must be at least 8 characters")
    ensures "confirmPassword" in r ==> r["confirmPassword"] == "Passwords do not match"
  {
    var e1 := if f.name == "" then map["name" := "Name is required"] else map[];
    var e2 :=
      if f.email == "" then e1["email" := "Email is required"]
      else if !EmailLike(f.email) then e1["email" := "Email is invalid"]
      else e1;
    var e3 :=
      if f.password == "" then e2["password" := "Password is required"]
      else if |f.password| < 8 then e2["password" := "Password must be at least 8 characters"]
      else e2;
    if f.password != f.confirmPassword then e3["confirmPassword" := "Passwords do not match"] else e3
  }

  const FormFields: set<string> := {"name", "email", "password", "confirmPassword"}

  /** `validate()`: the new error map, and whether it has no keys. */
  function Validate(f: AccessibleForm): (r: (bool, Errors))
    ensures r.1 == ValidationErrors(f)
    ensures r.0 <==> r.1 == map[]
  {
    var e := ValidationErrors(f);
    (|e| == 0, e)
  }

  /** The form validates exactly when every field is acceptable. */
  lemma ValidateAccepts(f: AccessibleForm)
    ensures Validate(f).0 <==>
      f.name != "" && EmailLike(f.email) && |f.password| >= 8 && f.password == f.confirmPassword
  {
    var e := ValidationErrors(f);
    if e != map[] {
      var k :| k in e;
      assert k in FormFields;
    }
  }

  function SetText(f: AccessibleForm, name: string, value: string): AccessibleForm {
    if name == "name" then f.(name := value)
    else if name == "email" then f.(email := value)
    else if name == "password" then f.(password := value)
    else if name == "confirmPassword" then f.(confirmPassword := value)
    else f
  }

  /** A field's error is reset to the empty string (not deleted) when it is
      non-empty; other errors are untouched. */
  function ResetError(errors: Errors, name: string): (r: Errors)
    ensures r.Keys == errors.Keys
    ensures name in errors && errors[name] != "" ==> r[name] == ""
    ensures forall k :: k in errors && (k != name || errors[k] == "") ==> r[k] == errors[k]
  {
    if name in errors && errors[name] != "" then errors[name := ""] else errors
  }

  /** `handleChange` for a text input: store the value and reset that
      field's error. */
  function HandleTextChange(f: AccessibleForm, errors: Errors, name: string, value: string)
    : (r: (AccessibleForm, Errors))
    ensures name == "name" ==> r.0 == f.(name := value)
    ensures name == "email" ==> r.0 == f.(email := value)
    ensures name == "password" ==> r.0 == f.(password := value)
    ensures name == "confirmPassword" ==> r.0 == f.(confirmPassword := value)
    ensures name !in {"name", "email", "password", "confirmPassword"} ==> r.0 == f
    ensures r.0.newsletter == f.newsletter
    ensures r.1 == ResetError(errors, name)
  {
    (SetText(f, name, value), ResetError(errors, name))
  }

  /** A text edit changes only the verdicts that read the edited field: the
      name and e-mail checks read their own field, the length check reads
      the password, and the match check reads both passwords. */
  lemma TextChangeRejudgesOnlyItsField(f: AccessibleForm, errors: Errors, name: string, value: string)
    ensures var g := HandleTextChange(f, errors, name, value).0;
      && (name != "name" ==> ("name" in ValidationErrors(g) <==> "name" in ValidationErrors(f)))
      && (name != "email" ==> ("email" in ValidationErrors(g) <==> "email" in ValidationErrors(f)))
      && (name != "password" ==> ("password" in ValidationErrors(g) <==> "password" in ValidationErrors(f)))
      && (name != "password" && name != "confirmPassword" ==>
            ("confirmPassword" in ValidationErrors(g) <==> "confirmPassword" in ValidationErrors(f)))
      && (name == "name" ==> ("name" in ValidationErrors(g) <==> value == ""))
      && (name == "password" ==> ("password" in ValidationErrors(g) <==> |value| < 8))
      && (name == "confirmPassword" ==> ("confirmPassword" in ValidationErrors(g) <==> value != f.password))
  {
  }

  /** `handleChange` for the newsletter checkbox: store `checked`. */
  function HandleCheckboxChange(f: AccessibleForm, errors: Errors, checked: bool): (r: (AccessibleForm, Errors))
    ensures r.0 == f.(newsletter := checked)
    ensures r.1 == ResetError(errors, "newsletter")
  {
    (f.(newsletter := checked), ResetError(errors, "newsletter"))
  }
}

=== FILE: accordion.dfy ===
/** The accordion of the UI-patterns page: the list of open section ids
    and the toggle that opens or closes one section. */
module Accordion {
  import opened JsArray

  function IsNot(id: string): string -> bool {
    (item: string) => item != id
  }

  /** `toggleItem(id)`: an open section is closed (every copy of its id is
      dropped) and a closed one is opened (its id appended). */
  function Toggle(open: seq<string>, id: string): (r: seq<string>)
    ensures id in open ==> id !in r && forall x :: x in r ==> x in open
    ensures id !in open ==> r == open + [id]
    ensures forall x :: x != id ==> (x in r <==> x in open)
  {
    if id in open then
      var r := Filter(open, IsNot(id));
      assert forall x :: x in r ==> x in open && x != id by {
        forall x | x in r ensures x in open && x != id {
          var i :| 0 <= i < |r| && r[i] == x;
        }
      }
      assert forall x :: x != id && x in open ==> x in r by {
        forall x | x != id && x in open ensures x in r {
          var i :| 0 <= i < |open| && open[i] == x;
        }
      }
      r
    else open + [id]
  }

  /** Toggling flips the section's membership, and toggling twice restores
      it; other sections are untouched either way. */
  lemma ToggleTwice(open: seq<string>, id: string, other: string)
    requires other != id
    ensures id in Toggle(open, id) <==> id !in open
    ensures id in Toggle(Toggle(open, id), id) <==> id in open
    ensures other in Toggle(Toggle(open, id), id) <==> other in open
  {
  }

  /** A list of open sections without repeats keeps none. */
  lemma ToggleKeepsDistinct(open: seq<string>, id: string)
    requires Distinct(open)
    ensures Distinct(Toggle(open, id))
  {
    if id in open {
      FilterDistinct(open, IsNot(id));
    }
  }
}

=== FILE: animations.dfy ===
/** The animation demos' state: the paged carousel and the animated list
    with add and remove. Both demo files hold the same two pieces of logic;
    only their page titles differ, which the model does not need. */
module Animations {
  import opened JsString
  import opened JsArray

  // ---------------------------------------------------------------------
  // Page transitions
  // ---------------------------------------------------------------------

  /** The current page and the direction of the last move. */
  datatype Pager = Pager(page: int, direction: int)

  const PageCount := 3

  const InitialPager: Pager := Pager(0, 0)

  /** `paginate(newDirection)`: move when the new page is in range,
      otherwise ignore the request. */
  function Paginate(p: Pager, newDirection: int, pageCount: nat): (r: Pager)
    ensures 0 <= p.page + newDirection < pageCount ==> r == Pager(p.page + newDirection, newDirection)
    ensures !(0 <= p.page + newDirection < pageCount) ==> r == p
    ensures 0 <= p.page < pageCount ==> 0 <= r.page < pageCount
  {
    var next := p.page + newDirection;
    if 0 <= next < pageCount then Pager(next, newDirection) else p
  }

  predicate PreviousDisabled(p: Pager) { p.page == 0 }
  predicate NextDisabled(p: Pager, pageCount: nat) { p.page == pageCount - 1 }

  /** On a page in range, a button is disabled exactly when its move would
      be ignored, so every enabled click changes the page. */
  lemma ButtonsMatchPaginate(p: Pager, pageCount: nat)
    requires 0 <= p.page < pageCount
    ensures PreviousDisabled(p) <==> Paginate(p, -1, pageCount).page == p.page
    ensures NextDisabled(p, pageCount) <==> Paginate(p, 1, pageCount).page == p.page
  {
  }

  /** Next then Previous from a page that has a next one returns to it. */
  lemma NextThenPrevious(p: Pager)
    requires 0 <= p.page < PageCount - 1
    ensures Paginate(Paginate(p, 1, PageCount), -1, PageCount).page == p.page
  {
  }

  // ---------------------------------------------------------------------
  // Animated list
  // ---------------------------------------------------------------------

  datatype ListItem = ListItem(id: int, text: string)

  const InitialItems: seq<ListItem> := [ListItem(1, "Item 1"), ListItem(2, "Item 2"), ListItem(3, "Item 3")]

  function Ids(items: seq<ListItem>): (r: seq<int>)
    ensures |r| == |items| && forall i :: 0 <= i < |r| ==> r[i] == items[i].id
  {
    seq(|items|, i requires 0 <= i < |items| => items[i].id)
  }

  predicate UniqueIds(items: seq<ListItem>) {
    forall i, j :: 0 <= i < j < |items| ==> items[i].id != items[j].id
  }

  /** A non-zero `Math.max(0, ...ids)` is the id of some item. */
  lemma MaxIsAnId(items: seq<ListItem>)
    ensures MaxOrZero(Ids(items)) == 0 || exists i | 0 <= i < |items| :: items[i].id == MaxOrZero(Ids(items))
  {
    var ids := Ids(items);
    if MaxOrZero(ids) != 0 {
      var i :| 0 <= i < |ids| && ids[i] == MaxOrZero(ids);
      assert items[i].id == MaxOrZero(ids);
    }
  }

  /** `addItem()`: a new last item whose id is one more than the largest
      (and at least 1), so above every existing id, labelled with the new
      length. */
  function AddItem(items: seq<ListItem>): (r: seq<ListItem>)
    ensures |r| == |items| + 1 && r[..|items|] == items
    ensures r[|items|].text == "Item " + Decimal(|items| + 1)
    ensures r[|items|].id >= 1
    ensures forall i :: 0 <= i < |items| ==> items[i].id < r[|items|].id
    ensures r[|items|].id == 1 || exists i | 0 <= i < |items| :: items[i].id + 1 == r[|items|].id
    ensures UniqueIds(items) ==> UniqueIds(r)
  {
    var ids := Ids(items);
    var added := ListItem(MaxOrZero(ids) + 1, "Item " + Decimal(|items| + 1));
    assert forall i :: 0 <= i < |items| ==> items[i].id == ids[i] <= MaxOrZero(ids);
    MaxIsAnId(items);
    var r := items + [added];
    assert r[..|items|] == items;
    r
  }

  function IdIsNot(id: int): ListItem -> bool {
    (item: ListItem) => item.id != id
  }

  /** `removeItem(id)`: the items with other ids, in order. */
  function RemoveItem(items: seq<ListItem>, id: int): (r: seq<ListItem>)
    ensures forall i :: 0 <= i < |r| ==> r[i].id != id && r[i] in items
    ensures forall i :: 0 <= i < |items| && items[i].id != id ==> items[i] in r
  {
    Filter(items, IdIsNot(id))
  }

  /** Removal keeps the ids unique. */
  lemma {:induction false} RemoveKeepsUnique(items: seq<ListItem>, id: int)
    requires UniqueIds(items)
    ensures UniqueIds(RemoveItem(items, id))
    decreases |items|
  {
    if |items| > 0 {
      var init := items[..|items| - 1];
      RemoveKeepsUnique(init, id);
      var last := items[|items| - 1];
      var rest := RemoveItem(init, id);
      assert forall k :: 0 <= k < |rest| ==> rest[k] in init && rest[k].id != last.id;
    }
  }

  /** Labels follow the length, not the ids, so a removal followed by an
      addition can repeat a label that is still on screen. */
  lemma LabelsCanRepeat()
    ensures var after := AddItem(RemoveItem(InitialItems, 2));
      |after| == 3 && after[1].text == after[2].text && after[1].id != after[2].id
  {
    var removed := RemoveItem(InitialItems, 2);
    assert InitialItems == InitialItems[..2] + [InitialItems[2]];
    assert InitialItems[..2] == InitialItems[..1] + [InitialItems[1]];
    assert InitialItems[..1] == [] + [InitialItems[0]];
    assert removed == [ListItem(1, "Item 1"), ListItem(3, "Item 3")];
    assert Decimal(3) == "3";
  }
}

=== FILE: custom_hooks.dfy ===
/** Two custom hooks: `useFormInput`, a text value with change and reset,
    and `useAsync`, the status, value and error around one asynchronous
    call. The call's outcome is a parameter. */
module CustomHooks {
  import opened Optional

  // ---------------------------------------------------------------------
  // useFormInput
  // ---------------------------------------------------------------------

  datatype FormInput = FormInput(value: string, initialValue: string)

  function UseFormInput(initialValue: string): (r: FormInput)
    ensures r.value == initialValue && r.initialValue == initialValue
  {
    FormInput(initialValue, initialValue)
  }

  /** `onChange`: the value becomes the input's. */
  function OnChange(f: FormInput, input: string): (r: FormInput)
    ensures r.value == input && r.initialValue == f.initialValue
  {
    f.(value := input)
  }

  /** `reset()`: back to the value the hook started with. */
  function ResetInput(f: FormInput): (r: FormInput)
    ensures r.value == f.initialValue && r.initialValue == f.initialValue
  {
    f.(value := f.initialValue)
  }

  /** However many edits came before, a reset restores the initial value. */
  lemma {:induction false} ResetAfterEdits(initialValue: string, edits: seq<string>)
    ensures ResetInput(Edited(UseFormInput(initialValue), edits)) == UseFormInput(initialValue)
  {
    EditsKeepInitial(UseFormInput(initialValue), edits);
  }

  function Edited(f: FormInput, edits: seq<string>): FormInput
    decreases |edits|
  {
    if |edits| == 0 then f else OnChange(Edited(f, edits[..|edits| - 1]), edits[|edits| - 1])
  }

  lemma {:induction false} EditsKeepInitial(f: FormInput, edits: seq<string>)
    ensures Edited(f, edits).initialValue == f.initialValue
    decreases |edits|
  {
    if |edits| > 0 {
      EditsKeepInitial(f, edits[..|edits| - 1]);
    }
  }

  // ---------------------------------------------------------------------
  // useAsync
  // ---------------------------------------------------------------------

  datatype Status = Idle | Pending | Succeeded | Failed

  datatype AsyncState<T, E> = AsyncState(status: Status, value: Option<T>, error: Option<E>)

  /** How the awaited call ends. */
  datatype Outcome<T, E> = Resolved(response: T) | Rejected(reason: E)

  function InitialAsync<T, E>(): AsyncState<T, E> {
    AsyncState(Idle, None, None)
  }

  /** The synchronous start of `execute`: pending, nothing held. */
  function Begin<T, E>(s: AsyncState<T, E>): (r: AsyncState<T, E>)
    ensures r == AsyncState(Pending, None, None)
  {
    AsyncState(Pending, None, None)
  }

  /** The end of `execute`: a response becomes the value, a rejection the
      error; the other field stays as `Begin` left it. */
  function Settle<T, E>(s: AsyncState<T, E>, outcome: Outcome<T, E>): (r: AsyncState<T, E>)
    ensures outcome.Resolved? ==> r.status == Succeeded && r.value == Some(outcome.response) && r.error == s.error
    ensures outcome.Rejected? ==> r.status == Failed && r.error == Some(outcome.reason) && r.value == s.value
  {
    match outcome
    case Resolved(v) => s.(value := Some(v), status := Succeeded)
    case Rejected(e) => s.(error := Some(e), status := Failed)
  }

  /** A whole `execute`. */
  function Execute<T, E>(s: AsyncState<T, E>, outcome: Outcome<T, E>): AsyncState<T, E> {
    Settle(Begin(s), outcome)
  }

  /** Status, value and error agree: a value only after success, an error
      only after failure, and each outcome carries its payload. */
  predicate Coherent<T, E>(s: AsyncState<T, E>) {
    && (s.value.Some? <==> s.status == Succeeded)
    && (s.error.Some? <==> s.status == Failed)
  }

  /** Starting from any state, a settled `execute` is coherent, whatever an
      earlier run left behind. */
  lemma ExecuteCoherent<T, E>(s: AsyncState<T, E>, outcome: Outcome<T, E>)
    ensures Coherent(Execute(s, outcome))
    ensures Coherent(Begin(s))
    ensures outcome.Resolved? ==> Execute(s, outcome) == AsyncState(Succeeded, Some(outcome.response), None)
    ensures outcome.Rejected? ==> Execute(s, outcome) == AsyncState(Failed, None, Some(outcome.reason))
  {
  }

  /** The state once the mount effect has run: `execute` runs exactly when
      `immediate` is set. */
  function Mount<T, E>(immediate: bool, outcome: Outcome<T, E>): (r: AsyncState<T, E>)
    ensures !immediate ==> r == InitialAsync()
    ensures immediate ==> r.status != Idle && Coherent(r)
  {
    if immediate then
      ExecuteCoherent(InitialAsync<T, E>(), outcome);
      Execute(InitialAsync(), outcome)
    else InitialAsync()
  }
}

=== FILE: fetch_machine.dfy ===
/** The `idle / loading / success / error` fetch state machine of the
    state-machine demos, and the demo screen around it: a Fetch button that
    is disabled while loading and schedules a settle, a Retry button shown
    only in the error state, and a deterministic settle that resolves on an
    even success count and rejects on an odd one. */
module FetchMachine {
  import opened Optional

  datatype State = Idle | Loading | Success | Error
  datatype Event = Fetch | Resolve | Reject | Retry

  const Initial: State := Idle

  /** `transition`: the reducer handed to `setState`. Every state/event
      pair yields a state; pairs without an edge leave the state alone. */
  function Transition(s: State, e: Event): (t: State)
    ensures s == Idle ==> (t == Loading <==> e == Fetch) && (t != Loading ==> t == Idle)
    ensures s == Loading ==> (e == Resolve ==> t == Success) && (e == Reject ==> t == Error)
                             && (e == Fetch || e == Retry ==> t == Loading)
    ensures s == Success ==> (t == Loading <==> e == Fetch) && (t != Loading ==> t == Success)
    ensures s == Error ==> (t == Loading <==> e == Retry || e == Fetch) && (t != Loading ==> t == Error)
  {
    match s
    case Idle => if e == Fetch then Loading else s
    case Loading => if e == Resolve then Success else if e == Reject then Error else s
    case Success => if e == Fetch then Loading else s
    case Error => if e == Retry then Loading else if e == Fetch then Loading else s
  }

  /** The transition list the demo displays next to the machine. */
  const DocumentedEdges: set<(State, Event, State)> := {
    (Idle, Fetch, Loading),
    (Loading, Resolve, Success),
    (Loading, Reject, Error),
    (Error, Retry, Loading),
    (Error, Fetch, Loading),
    (Success, Fetch, Loading)
  }

  /** The reducer moves exactly along the documented edges: every edge is
      taken by its event, and every change of state is a documented edge. */
  lemma TransitionFollowsDocumentedEdges(s: State, e: Event, t: State)
    ensures (s, e, t) in DocumentedEdges ==> Transition(s, e) == t
    ensures Transition(s, e) != s ==> (s, e, Transition(s, e)) in DocumentedEdges
    ensures Transition(s, e) == s ==> forall u :: (s, e, u) !in DocumentedEdges
  {
  }

  /** The state after feeding `events` to the machine one by one. */
  function Run(s: State, events: seq<Event>): State
    decreases |events|
  {
    if |events| == 0 then s else Transition(Run(s, events[..|events| - 1]), events[|events| - 1])
  }

  /** `success` and `error` are entered only from `loading`. */
  lemma OutcomeOnlyFromLoading(s: State, e: Event)
    requires s != Transition(s, e)
    requires Transition(s, e) == Success || Transition(s, e) == Error
    ensures s == Loading
  {
  }

  /** No event sequence gets from `idle` to `success` or `error` without
      passing through `loading`: some prefix of it ends in `loading`. */
  lemma {:induction false} OutcomeAfterLoading(events: seq<Event>)
    requires Run(Initial, events) == Success || Run(Initial, events) == Error
    ensures exists i :: 0 <= i < |events| && Run(Initial, events[..i]) == Loading
    decreases |events|
  {
    var init := events[..|events| - 1];
    var p := Run(Initial, init);
    if p == Success || p == Error {
      OutcomeAfterLoading(init);
      var i :| 0 <= i < |init| && Run(Initial, init[..i]) == Loading;
      assert events[..i] == init[..i];
    } else {
      assert p == Loading;
      assert events[..|events| - 1] == init;
    }
  }

  // ---------------------------------------------------------------------
  // The demo screen
  // ---------------------------------------------------------------------

  /** The screen: the machine state, `successCount`, and the settle the
      Fetch click scheduled, holding the `successCount` its closure saw. */
  datatype Screen = Screen(state: State, successCount: nat, scheduled: Option<nat>)

  datatype Action = ClickFetch | ClickRetry | Settle

  const InitialScreen: Screen := Screen(Initial, 0, None)

  /** The event a settle delivers: RESOLVE when the captured count is even,
      REJECT when it is odd. */
  function Outcome(captured: nat): (e: Event)
    ensures e == Resolve <==> captured % 2 == 0
    ensures e == Resolve || e == Reject
  {
    if captured % 2 == 0 then Resolve else Reject
  }

  /** Whether an action is available: Fetch is disabled while loading, Retry
      is rendered only in the error state, and a settle fires only once
      scheduled. */
  predicate Enabled(sc: Screen, a: Action) {
    match a
    case ClickFetch => sc.state != Loading
    case ClickRetry => sc.state == Error
    case Settle => sc.scheduled.Some?
  }

  /** One user action or timer callback, as written: Retry only sends RETRY
      and schedules nothing. A disabled action is `None`. */
  function Step(sc: Screen, a: Action): (r: Option<Screen>)
    ensures r.Some? <==> Enabled(sc, a)
    ensures r.Some? && a == ClickFetch ==>
      r.value == Screen(Loading, sc.successCount, Some(sc.successCount))
    ensures r.Some? && a == ClickRetry ==> r.value == Screen(Loading, sc.successCount, sc.scheduled)
    ensures r.Some? && a == Settle ==>
      r.value == Screen(Transition(sc.state, Outcome(sc.scheduled.value)), sc.successCount + 1, None)
  {
    if !Enabled(sc, a) then None
    else match a
      case ClickFetch => Some(Screen(Transition(sc.state, Fetch), sc.successCount, Some(sc.successCount)))
      case ClickRetry => Some(Screen(Transition(sc.state, Retry), sc.successCount, sc.scheduled))
      case Settle =>
        Some(Screen(Transition(sc.state, Outcome(sc.scheduled.value)), sc.successCount + 1, None))
  }

  /** A screen on which nothing can happen any more. */
  predicate Stuck(sc: Screen) {
    forall a: Action :: !Enabled(sc, a)
  }

  /** Screens reachable from the initial one: a settle is pending only
      while loading. */
  predicate Consistent(sc: Screen) {
    sc.scheduled.Some? ==> sc.state == Loading && sc.scheduled.value == sc.successCount
  }

  lemma StepKeepsConsistent(sc: Screen, a: Action)
    requires Consistent(sc) && Enabled(sc, a)
    ensures Consistent(Step(sc, a).value)
  {
  }

  /** A Fetch click followed by its settle: the closure sees the current
      count, so the cycle ends in `success` on an even count and `error` on
      an odd one, and the count goes up by one. */
  function FetchCycle(sc: Screen): (r: Option<Screen>)
    requires Consistent(sc)
    ensures r.Some? <==> sc.state != Loading
    ensures r.Some? ==> r.value.scheduled == None && r.value.successCount == sc.successCount + 1
    ensures r.Some? ==> (r.value.state == Success <==> sc.successCount % 2 == 0)
    ensures r.Some? ==> (r.value.state == Error <==> sc.successCount % 2 == 1)
  {
    match Step(sc, ClickFetch)
    case None => None
    case Some(mid) => Step(mid, Settle)
  }

  /** Successive fetches alternate between success and error. */
  lemma FetchesAlternate(sc: Screen)
    requires Consistent(sc) && sc.state != Loading
    ensures var first := FetchCycle(sc).value;
      FetchCycle(first).Some? && FetchCycle(first).value.state != first.state
  {
  }

  /** As written, Retry leaves the screen stuck in `loading`: it sends RETRY
      but schedules no settle, Fetch is disabled while loading and Retry is
      hidden outside the error state. */
  lemma RetryGetsStuck(sc: Screen)
    requires Consistent(sc) && sc.state == Error
    ensures Step(sc, ClickRetry).Some?
    ensures Stuck(Step(sc, ClickRetry).value)
  {
    var r := Step(sc, ClickRetry).value;
    forall a: Action ensures !Enabled(r, a) {
      match a
      case ClickFetch =>
      case ClickRetry =>
      case Settle =>
    }
  }

  /** The intended Retry: it sends RETRY and schedules a settle as the Fetch
      click does. */
  function FixedStep(sc: Screen, a: Action): (r: Option<Screen>)
    ensures r.Some? <==> Enabled(sc, a)
    ensures a != ClickRetry ==> r == Step(sc, a)
    ensures r.Some? && a == ClickRetry ==>
      r.value == Screen(Loading, sc.successCount, Some(sc.successCount))
  {
    if a == ClickRetry && Enabled(sc, a) then
      Some(Screen(Transition(sc.state, Retry), sc.successCount, Some(sc.successCount)))
    else Step(sc, a)
  }

  /** With the intended Retry, a screen reached from the initial one is never
      stuck: loading always has a settle pending. */
  predicate Live(sc: Screen) {
    Consistent(sc) && (sc.state == Loading ==> sc.scheduled.Some?)
  }

  lemma FixedStepKeepsLive(sc: Screen, a: Action)
    requires Live(sc) && Enabled(sc, a)
    ensures Live(FixedStep(sc, a).value)
    ensures !Stuck(FixedStep(sc, a).value)
  {
    var r := FixedStep(sc, a).value;
    if r.state == Loading {
      assert Enabled(r, Settle);
    } else {
      assert Enabled(r, ClickFetch);
    }
  }

  lemma InitialScreenLive()
    ensures Live(InitialScreen) && !Stuck(InitialScreen)
  {
    assert Enabled(InitialScreen, ClickFetch);
  }
}

=== FILE: form_handling.dfy ===
/** The form-handling demos: the hand-written field validator with its
    error map, the three-step form, and the dynamic list of line items. */
module FormHandling {
  import opened Optional
  import opened JsString
  import opened Patterns
  import opened JsArray

  // ---------------------------------------------------------------------
  // Validated form
  // ---------------------------------------------------------------------

  datatype SignupForm = SignupForm(username: string, email: string, password: string, confirmPassword: string)

  type Errors = map<string, string>

  /** A validation rule: the message reported when the value fails it. */
  datatype Rule = Rule(holds: string -> bool, message: string)

  /** The message of the first rule the value fails, if any. */
  function FirstFailure(rules: seq<Rule>, value: string): (r: Option<string>)
    ensures r.None? <==> forall i :: 0 <= i < |rules| ==> rules[i].holds(value)
    ensures r.Some? ==> exists i | 0 <= i < |rules| ::
      !rules[i].holds(value) && r.value == rules[i].message
      && forall j :: 0 <= j < i ==> rules[j].holds(value)
    decreases |rules|
  {
    if |rules| == 0 then None
    else if !rules[0].holds(value) then Some(rules[0].message)
    else
      var r := FirstFailure(rules[1..], value);
      assert forall i :: 1 <= i < |rules| ==> rules[1..][i - 1] == rules[i];
      if r.Some? then
        var i :| 0 <= i < |rules| - 1 && !rules[1..][i].holds(value) && r.value == rules[1..][i].message
          && forall j :: 0 <= j < i ==> rules[1..][j].holds(value);
        assert !rules[i + 1].holds(value) && r.value == rules[i + 1].message;
        r
      else r
  }

  function NonEmpty(): string -> bool { (v: string) => v != "" }
  function MinLength(n: nat): string -> bool { (v: string) => |v| >= n }
  function Matches(other: string): string -> bool { (v: string) => v == other }

  /** The password rules in the order they are checked. */
  function PasswordRules(): seq<Rule> {
    [ Rule(NonEmpty(), "Password is required"),
      Rule(MinLength(8), "Password must be at least 8 characters"),
      Rule(HasUpper, "Password must contain at least one uppercase letter"),
      Rule(HasDigit, "Password must contain at least one number") ]
  }

  function UsernameRules(): seq<Rule> {
    [ Rule(NonEmpty(), "Username is required"),
      Rule(MinLength(3), "Username must be at least 3 characters") ]
  }

  function EmailRules(): seq<Rule> {
    [ Rule(NonEmpty(), "Email is required"),
      Rule(EmailLike, "Email is invalid") ]
  }

  /** The confirmation is checked against the current password. */
  function ConfirmRules(password: string): seq<Rule> {
    [ Rule(NonEmpty(), "Please confirm your password"),
      Rule(Matches(password), "Passwords do not match") ]
  }

  /** `validateField`'s message for a field, or `None` when it passes; the
      confirmation is compared with the current password. Unknown names
      pass. */
  function FieldError(name: string, value: string, password: string): (r: Option<string>)
    ensures r.Some? ==> r.value != ""
  {
    if name == "username" then
      if value == "" then Some("Username is required")
      else if |value| < 3 then Some("Username must be at least 3 characters")
      else None
    else if name == "email" then
      if value == "" then Some("Email is required")
      else if !EmailLike(value) then Some("Email is invalid")
      else None
    else if name == "password" then
      if value == "" then Some("Password is required")
      else if |value| < 8 then Some("Password must be at least 8 characters")
      else if !HasUpper(value) then Some("Password must contain at least one uppercase letter")
      else if !HasDigit(value) then Some("Password must contain at least one number")
      else None
    else if name == "confirmPassword" then
      if value == "" then Some("Please confirm your password")
      else if value != password then Some("Passwords do not match")
      else None
    else None
  }

  /** What each field accepts: a username of at least 3 characters, an
      address matching the e-mail pattern, a password of at least 8
      characters with an upper-case letter and a digit, and a confirmation
      equal to the (non-empty) password. Any other name is accepted. */
  lemma FieldAccepts(name: string, value: string, password: string)
    ensures name == "username" ==> (FieldError(name, value, password).None? <==> |value| >= 3)
    ensures name == "email" ==> (FieldError(name, value, password).None? <==> EmailLike(value))
    ensures name == "password" ==>
      (FieldError(name, value, password).None? <==> |value| >= 8 && HasUpper(value) && HasDigit(value))
    ensures name == "confirmPassword" ==>
      (FieldError(name, value, password).None? <==> value != "" && value == password)
    ensures name !in {"username", "email", "password", "confirmPassword"} ==> FieldError(name, value, password).None?
  {
  }

  /** The password checks report exactly the first failing rule. */
  lemma PasswordFirstFailure(value: string, password: string)
    ensures FieldError("password", value, password) == FirstFailure(PasswordRules(), value)
  {
    var rules := PasswordRules();
    assert rules[1..][1..][1..][1..] == [];
  }

  /** The other fields report the first failing rule of their own ordered
      list too. */
  lemma FieldMessages(value: string, password: string)
    ensures FieldError("username", value, password) == FirstFailure(UsernameRules(), value)
    ensures FieldError("email", value, password) == FirstFailure(EmailRules(), value)
    ensures FieldError("confirmPassword", value, password) == FirstFailure(ConfirmRules(password), value)
  {
    assert UsernameRules()[1..][1..] == [];
    assert EmailRules()[1..][1..] == [];
    assert ConfirmRules(password)[1..][1..] == [];
  }

  function Get(form: SignupForm, name: string): string {
    if name == "username" then form.username
    else if name == "email" then form.email
    else if name == "password" then form.password
    else if name == "confirmPassword" then form.confirmPassword
    else ""
  }

  /** `validateField(name, value)`: record the message under the field's
      name when there is one, and answer whether there was none. A passing
      field leaves the map alone. */
  function ValidateField(form: SignupForm, errors: Errors, name: string, value: string): (r: (bool, Errors))
    ensures r.0 <==> FieldError(name, value, form.password).None?
    ensures r.0 ==> r.1 == errors
    ensures !r.0 ==> r.1 == errors[name := FieldError(name, value, form.password).value]
  {
    match FieldError(name, value, form.password)
    case None => (true, errors)
    case Some(message) => (false, errors[name := message])
  }

  const FieldNames: seq<string> := ["username", "email", "password", "confirmPassword"]

  /** The field called `name` passes its check on the current form. */
  predicate Passes(form: SignupForm, name: string) {
    FieldError(name, Get(form, name), form.password).None?
  }

  /** Validate the named fields in order, threading the error map. */
  function ValidateAll(form: SignupForm, errors: Errors, names: seq<string>): (r: (bool, Errors))
    ensures r.0 <==> forall i :: 0 <= i < |names| ==> Passes(form, names[i])
    ensures forall k :: k in errors ==> k in r.1
    ensures forall k :: k in errors && k !in names ==> r.1[k] == errors[k]
    ensures forall i :: 0 <= i < |names| && !Passes(form, names[i]) ==> names[i] in r.1
    decreases |names|
  {
    if |names| == 0 then (true, errors)
    else
      var first := ValidateField(form, errors, names[0], Get(form, names[0]));
      var rest := ValidateAll(form, first.1, names[1..]);
      assert forall i :: 1 <= i < |names| ==> names[1..][i - 1] == names[i];
      (first.0 && rest.0, rest.1)
  }

  /** `validateForm()`: the form is valid exactly when every field passes,
      and every failing field has an entry in the new error map. */
  function ValidateForm(form: SignupForm, errors: Errors): (r: (bool, Errors))
    ensures r.0 <==> |form.username| >= 3 && EmailLike(form.email)
                     && |form.password| >= 8 && HasUpper(form.password) && HasDigit(form.password)
                     && form.confirmPassword != "" && form.confirmPassword == form.password
    ensures !r.0 ==> |r.1| > 0
  {
    var r := ValidateAll(form, errors, FieldNames);
    ValidateFormFacts(form, errors, r);
    r
  }

  lemma ValidateFormFacts(form: SignupForm, errors: Errors, r: (bool, Errors))
    requires r == ValidateAll(form, errors, FieldNames)
    ensures r.0 <==> |form.username| >= 3 && EmailLike(form.email)
                     && |form.password| >= 8 && HasUpper(form.password) && HasDigit(form.password)
                     && form.confirmPassword != "" && form.confirmPassword == form.password
    ensures !r.0 ==> |r.1| > 0
  {
    FieldAccepts("username", form.username, form.password);
    FieldAccepts("email", form.email, form.password);
    FieldAccepts("password", form.password, form.password);
    FieldAccepts("confirmPassword", form.confirmPassword, form.password);
    assert Get(form, FieldNames[0]) == form.username;
    assert Get(form, FieldNames[1]) == form.email;
    assert Get(form, FieldNames[2]) == form.password;
    assert Get(form, FieldNames[3]) == form.confirmPassword;
    if !r.0 {
      var i :| 0 <= i < 4 && !Passes(form, FieldNames[i]);
      assert FieldNames[i] in r.1.Keys;
    }
  }

  function Set(form: SignupForm, name: string, value: string): SignupForm {
    if name == "username" then form.(username := value)
    else if name == "email" then form.(email := value)
    else if name == "password" then form.(password := value)
    else if name == "confirmPassword" then form.(confirmPassword := value)
    else form
  }

  /** `handleChange`: store the value and, when the field has a non-empty
      error, delete that error. Other fields and other errors are kept. */
  function HandleChange(form: SignupForm, errors: Errors, name: string, value: string): (r: (SignupForm, Errors))
    ensures name in FieldNames ==> Get(r.0, name) == value
    ensures forall n :: n in FieldNames && n != name ==> Get(r.0, n) == Get(form, n)
    ensures name !in r.1 || (name in errors && errors[name] == "" && r.1 == errors)
    ensures forall k :: k != name ==> (k in r.1 <==> k in errors) && (k in r.1 ==> r.1[k] == errors[k])
  {
    var errors' := if name in errors && errors[name] != "" then errors - {name} else errors;
    (Set(form, name, value), errors')
  }

  // ---------------------------------------------------------------------
  // Multi-step form
  // ---------------------------------------------------------------------

  const StepFields: seq<string> :=
    ["firstName", "lastName", "email", "street", "city", "state", "zipCode", "username", "password"]

  /** The step shown and the values typed so far. */
  datatype Wizard = Wizard(step: int, data: map<string, string>)

  function BlankData(): (d: map<string, string>)
    ensures forall f :: f in d <==> f in StepFields
    ensures forall f :: f in d ==> d[f] == ""
  {
    map f | f in StepFields :: ""
  }

  const InitialWizard: Wizard := Wizard(1, BlankData())

  datatype WizardAction = Previous | Next | Change(name: string, value: string) | Submit

  /** Which buttons are shown: Previous after the first step, Next before
      the last one, Submit on the last one. Typing is always possible. */
  predicate Offered(w: Wizard, a: WizardAction) {
    match a
    case Previous => w.step > 1
    case Next => w.step < 3
    case Change(_, _) => true
    case Submit => w.step >= 3
  }

  /** A `required` input holds a non-empty value. */
  predicate Filled(data: map<string, string>, field: string) {
    field in data && data[field] != ""
  }

  /** One action on the wizard. The last step's two inputs are `required`,
      so the browser refuses a submit while either is blank and the wizard
      stays as it is; an accepted submit resets to step 1 with blank data. */
  function WizardStep(w: Wizard, a: WizardAction): (r: Option<Wizard>)
    ensures r.Some? <==> Offered(w, a)
    ensures r.Some? && a.Submit? && Filled(w.data, "username") && Filled(w.data, "password") ==>
      r.value == InitialWizard
    ensures r.Some? && a.Submit? && !(Filled(w.data, "username") && Filled(w.data, "password")) ==>
      r.value == w
    ensures r.Some? && a.Change? ==> r.value == Wizard(w.step, w.data[a.name := a.value])
    ensures r.Some? && a.Next? ==> r.value == w.(step := w.step + 1)
    ensures r.Some? && a.Previous? ==> r.value == w.(step := w.step - 1)
  {
    if !Offered(w, a) then None
    else match a
      case Previous => Some(w.(step := w.step - 1))
      case Next => Some(w.(step := w.step + 1))
      case Change(name, value) => Some(w.(data := w.data[name := value]))
      case Submit =>
        if Filled(w.data, "username") && Filled(w.data, "password") then Some(InitialWizard) else Some(w)
  }

  /** The step stays within 1..3 under every offered action. */
  lemma WizardStepInRange(w: Wizard, a: WizardAction)
    requires 1 <= w.step <= 3 && Offered(w, a)
    ensures 1 <= WizardStep(w, a).value.step <= 3
  {
  }

  /** On the last step, typing a username and a password and then
      submitting starts the wizard over; submitting with a blank password
      changes nothing. */
  lemma FillThenSubmit(w: Wizard, user: string, password: string)
    requires w.step == 3 && user != "" && password != ""
    ensures var w1 := WizardStep(w, Change("username", user)).value;
      var w2 := WizardStep(w1, Change("password", password)).value;
      WizardStep(w2, Submit) == Some(InitialWizard)
    ensures var w1 := WizardStep(w, Change("username", user)).value;
      var blank := WizardStep(w1, Change("password", "")).value;
      WizardStep(blank, Submit) == Some(blank)
  {
  }

  /** Next then Previous returns to the same screen. */
  lemma NextThenPrevious(w: Wizard)
    requires 1 <= w.step < 3
    ensures WizardStep(WizardStep(w, Next).value, Previous) == Some(w)
  {
  }

  // ---------------------------------------------------------------------
  // Dynamic form fields
  // ---------------------------------------------------------------------

  datatype LineItem = LineItem(id: int, name: string, quantity: string, price: string)

  datatype ItemField = Name | Quantity | Price

  const InitialLines: seq<LineItem> := [LineItem(1, "", "", "")]

  predicate UniqueLineIds(items: seq<LineItem>) {
    forall i, j :: 0 <= i < j < |items| ==> items[i].id != items[j].id
  }

  /** `Math.max(...items.map(item => item.id))` of a non-empty list. */
  function MaxId(items: seq<LineItem>): (m: int)
    requires |items| > 0
    ensures forall i :: 0 <= i < |items| ==> items[i].id <= m
    ensures exists i | 0 <= i < |items| :: items[i].id == m
    decreases |items|
  {
    if |items| == 1 then items[0].id
    else
      var m := MaxId(items[..|items| - 1]);
      assert forall i :: 0 <= i < |items| - 1 ==> items[..|items| - 1][i] == items[i];
      if items[|items| - 1].id > m then items[|items| - 1].id else m
  }

  /** `addItem`: a blank line whose id is one more than the largest id, or
      1 for an empty list; the new id is fresh. */
  function AddLine(items: seq<LineItem>): (r: seq<LineItem>)
    ensures |r| == |items| + 1 && r[..|items|] == items
    ensures forall i :: 0 <= i < |items| ==> items[i].id < r[|items|].id
    ensures |items| == 0 ==> r[0].id == 1
    ensures |items| > 0 ==> exists i | 0 <= i < |items| :: items[i].id + 1 == r[|items|].id
    ensures r[|items|].name == "" && r[|items|].quantity == "" && r[|items|].price == ""
    ensures UniqueLineIds(items) ==> UniqueLineIds(r)
  {
    var newId := if |items| > 0 then MaxId(items) + 1 else 1;
    items + [LineItem(newId, "", "", "")]
  }

  /** `removeItem(id)`: with more than one line, drop the lines with that
      id; the last remaining line is never removed. */
  function RemoveLine(items: seq<LineItem>, id: int): (r: seq<LineItem>)
    ensures |items| <= 1 ==> r == items
    ensures |items| > 1 ==> forall i :: 0 <= i < |r| ==> r[i].id != id && r[i] in items
    ensures |items| > 1 ==> forall i :: 0 <= i < |items| && items[i].id != id ==> items[i] in r
    ensures UniqueLineIds(items) ==> UniqueLineIds(r)
    ensures UniqueLineIds(items) && |items| > 0 ==> |r| > 0
  {
    if |items| > 1 then
      var r := Filter(items, LineIdIsNot(id));
      if UniqueLineIds(items) then
        OtherLinesUnique(items, id);
        r
      else r
    else items
  }

  function LineIdIsNot(id: int): LineItem -> bool {
    (item: LineItem) => item.id != id
  }

  /** With unique ids, filtering one id out keeps the ids unique and drops
      at most one line. */
  lemma {:induction false} OtherLinesUnique(items: seq<LineItem>, id: int)
    requires UniqueLineIds(items)
    ensures UniqueLineIds(Filter(items, LineIdIsNot(id)))
    ensures |Filter(items, LineIdIsNot(id))| >= |items| - 1
    decreases |items|
  {
    if |items| > 0 {
      var init := items[..|items| - 1];
      var last := items[|items| - 1];
      var rest := Filter(init, LineIdIsNot(id));
      OtherLinesUnique(init, id);
      if last.id != id {
        assert Filter(items, LineIdIsNot(id)) == rest + [last];
        forall i | 0 <= i < |rest| ensures rest[i].id != last.id {
          var j :| 0 <= j < |init| && init[j] == rest[i];
        }
      } else {
        FilterKeepsAll(init, LineIdIsNot(id));
      }
    }
  }

  function SetItemField(item: LineItem, field: ItemField, value: string): LineItem {
    match field
    case Name => item.(name := value)
    case Quantity => item.(quantity := value)
    case Price => item.(price := value)
  }

  /** `handleItemChange(id, field, value)`: only lines with that id change,
      and only in that field. */
  function ChangeLine(items: seq<LineItem>, id: int, field: ItemField, value: string): (r: seq<LineItem>)
    ensures |r| == |items|
    ensures forall i :: 0 <= i < |items| && items[i].id != id ==> r[i] == items[i]
    ensures forall i :: 0 <= i < |items| && items[i].id == id ==>
      r[i] == SetItemField(items[i], field, value) && r[i].id == id
    ensures UniqueLineIds(items) ==> UniqueLineIds(r)
  {
    seq(|items|, i requires 0 <= i < |items| =>
      if items[i].id == id then SetItemField(items[i], field, value) else items[i])
  }

  /** Starting from one line, every add, remove and edit keeps the ids
      unique and the list non-empty. */
  predicate LinesOk(items: seq<LineItem>) {
    UniqueLineIds(items) && |items| > 0
  }

  lemma LineEditsKeepInvariant(items: seq<LineItem>, id: int, field: ItemField, value: string)
    requires LinesOk(items)
    ensures LinesOk(AddLine(items))
    ensures LinesOk(RemoveLine(items, id))
    ensures LinesOk(ChangeLine(items, id, field, value))
  {
  }
}

=== FILE: home.dfy ===
/** The home page: fourteen feature categories, a search box that filters
    the sidebar by name, and the active category. */
module Home {
  import opened JsString
  import opened JsArray

  datatype Category = Category(id: string, name: string)

  const Categories: seq<Category> := [
    Category("core", "Core React Features"),
    Category("hooks", "Hooks & State Management"),
    Category("performance", "Performance Optimization"),
    Category("ui", "UI Patterns & Components"),
    Category("animation", "Animation & Transitions"),
    Category("forms", "Form Handling"),
    Category("data", "Data Fetching & API"),
    Category("routing", "Routing & Navigation"),
    Category("testing", "Testing & Debugging"),
    Category("a11y", "Accessibility"),
    Category("security", "Security"),
    Category("deployment", "Deployment & Build"),
    Category("ecosystem", "React Ecosystem"),
    Category("patterns", "Advanced Patterns")
  ]

  function NameMatches(query: string): Category -> bool {
    (c: Category) => Includes(Lower(c.name), Lower(query))
  }

  /** `filteredCategories`: the categories whose lower-cased name contains
      the lower-cased query, in order. */
  function FilterCategories(categories: seq<Category>, query: string): (r: seq<Category>)
    ensures forall i :: 0 <= i < |r| ==> r[i] in categories && Includes(Lower(r[i].name), Lower(query))
    ensures forall i :: 0 <= i < |categories| && Includes(Lower(categories[i].name), Lower(query)) ==>
      categories[i] in r
  {
    Filter(categories, NameMatches(query))
  }

  /** The empty query lists every category. */
  lemma EmptyQueryListsAll(categories: seq<Category>)
    ensures FilterCategories(categories, "") == categories
  {
    forall i | 0 <= i < |categories| ensures NameMatches("")(categories[i]) {
      IncludesEmpty(Lower(categories[i].name));
    }
    FilterKeepsAll(categories, NameMatches(""));
  }

  /** All fourteen, then, on the page's list. */
  lemma EmptyQueryListsFourteen()
    ensures |FilterCategories(Categories, "")| == 14
  {
    EmptyQueryListsAll(Categories);
  }

  /** Queries that lower-case alike give the same list. */
  lemma FilterIgnoresCase(categories: seq<Category>, q1: string, q2: string)
    requires Lower(q1) == Lower(q2)
    ensures FilterCategories(categories, q1) == FilterCategories(categories, q2)
  {
    FilterCongruent(categories, NameMatches(q1), NameMatches(q2));
  }

  /** The search text and the active category. */
  datatype Page = Page(query: string, activeCategory: string)

  const InitialPage: Page := Page("", "core")

  /** Typing in the search box changes only the query: the active category
      stays, even when the filter hides it from the sidebar, and the tab
      strip still lists every category. */
  function Search(p: Page, query: string): (r: Page)
    ensures r.query == query && r.activeCategory == p.activeCategory
  {
    p.(query := query)
  }

  /** Picking a category from the sidebar or the tab strip. */
  function Select(p: Page, id: string): (r: Page)
    ensures r.activeCategory == id && r.query == p.query
  {
    p.(activeCategory := id)
  }

  /** The active category can be hidden by the filter while still selected:
      searching for another category's full name hides "core". */
  lemma ActiveCanBeFilteredOut()
    ensures var p := Search(InitialPage, "performance optimization");
      p.activeCategory == "core" && Categories[0] !in FilterCategories(Categories, p.query)
  {
    var q := "performance optimization";
    assert |Lower(Categories[0].name)| < |Lower(q)|;
    assert !NameMatches(q)(Categories[0]);
  }
}

=== FILE: hooks_state.dfy ===
/** The state hooks demos: the `useReducer` counter with its error and
    loading flags, the zustand counter store (the same store appears in the
    hooks page and the state-management page), and the `useMemo` demo's
    list, filter and loop. */
module HooksState {
  import opened Optional
  import opened JsArray

  // ---------------------------------------------------------------------
  // useReducer counter
  // ---------------------------------------------------------------------

  datatype CounterState = CounterState(count: int, error: Option<string>, loading: bool)

  /** The reducer's actions; `Unrecognised` stands for any other `type`,
      which the `default` branch handles. */
  datatype Action =
    | Increment
    | Decrement
    | Reset
    | SetCount(value: int)
    | SetError(message: string)
    | ClearError
    | SetLoading(on: bool)
    | Unrecognised

  const InitialCounter: CounterState := CounterState(0, None, false)

  const NegativeCountError: string := "Count cannot be negative"

  /** The reducer. Decrementing a count that is not positive leaves the count
      alone and reports an error; every count change clears the error. */
  function Reduce(s: CounterState, a: Action): (t: CounterState)
    ensures a.Increment? ==> t.count == s.count + 1 && t.error == None
    ensures a.Decrement? && s.count <= 0 ==> t.count == s.count && t.error == Some(NegativeCountError)
    ensures a.Decrement? && s.count > 0 ==> t.count == s.count - 1 && t.error == None
    ensures a.Reset? ==> t.count == 0 && t.error == None
    ensures a.SetCount? ==> t.count == a.value && t.error == None
    ensures a.SetError? ==> t == s.(error := Some(a.message))
    ensures a.ClearError? ==> t == s.(error := None)
    ensures a.Unrecognised? ==> t == s
    ensures !a.SetLoading? ==> t.loading == s.loading
    ensures a.SetLoading? ==> t == s.(loading := a.on)
  {
    match a
    case Increment => s.(count := s.count + 1, error := None)
    case Decrement =>
      if s.count <= 0 then s.(error := Some(NegativeCountError))
      else s.(count := s.count - 1, error := None)
    case Reset => s.(count := 0, error := None)
    case SetCount(v) => s.(count := v, error := None)
    case SetError(m) => s.(error := Some(m))
    case ClearError => s.(error := None)
    case SetLoading(on) => s.(loading := on)
    case Unrecognised => s
  }

  const InvalidNumberError: string := "Please enter a valid number"

  /** `handleSetCount`: the value of `Number(inputValue)` is the parameter
      `number`, `None` standing for NaN. NaN reports an error and keeps the
      text box; a number becomes the count and empties the box. */
  function HandleSetCount(s: CounterState, inputValue: string, number: Option<int>): (r: (CounterState, string))
    ensures number.None? ==> r.0 == s.(error := Some(InvalidNumberError)) && r.1 == inputValue
    ensures number.Some? ==> r.0 == s.(count := number.value, error := None) && r.1 == ""
  {
    match number
    case None => (Reduce(s, SetError(InvalidNumberError)), inputValue)
    case Some(v) => (Reduce(s, SetCount(v)), "")
  }

  /** A rejected entry changes only the error; correcting it and setting
      again replaces the count and clears that error. */
  lemma InvalidThenValid(s: CounterState, inputValue: string, v: int)
    ensures var (s1, box) := HandleSetCount(s, inputValue, None);
      s1.count == s.count && box == inputValue
      && HandleSetCount(s1, box, Some(v)) == (s.(count := v, error := None), "")
  {
  }

  /** The state after dispatching `actions` in order. */
  function Dispatch(s: CounterState, actions: seq<Action>): CounterState
    decreases |actions|
  {
    if |actions| == 0 then s else Reduce(Dispatch(s, actions[..|actions| - 1]), actions[|actions| - 1])
  }

  /** Without SET_COUNT the count never goes negative from the initial state. */
  lemma {:induction false} CountStaysNonNegative(actions: seq<Action>)
    requires forall i :: 0 <= i < |actions| ==> !actions[i].SetCount?
    ensures Dispatch(InitialCounter, actions).count >= 0
    decreases |actions|
  {
    if |actions| > 0 {
      CountStaysNonNegative(actions[..|actions| - 1]);
    }
  }

  /** Only SET_LOADING actions touch the loading flag: the flag after a run
      is the last SET_LOADING payload, or the initial flag if there was none. */
  function LastLoading(start: bool, actions: seq<Action>): bool
    decreases |actions|
  {
    if |actions| == 0 then start
    else
      var a := actions[|actions| - 1];
      if a.SetLoading? then a.on else LastLoading(start, actions[..|actions| - 1])
  }

  lemma {:induction false} LoadingFollowsSetLoading(s: CounterState, actions: seq<Action>)
    ensures Dispatch(s, actions).loading == LastLoading(s.loading, actions)
    decreases |actions|
  {
    if |actions| > 0 {
      LoadingFollowsSetLoading(s, actions[..|actions| - 1]);
    }
  }

  /** An increment undone by a decrement restores the count, with the error
      cleared. */
  lemma IncrementThenDecrement(s: CounterState)
    requires s.count >= 0
    ensures Dispatch(s, [Increment, Decrement]) == s.(error := None)
  {
    assert [Increment, Decrement][..1] == [Increment];
    assert [Increment][..0] == [];
  }

  // ---------------------------------------------------------------------
  // zustand counter store
  // ---------------------------------------------------------------------

  datatype Counter = Counter(count: int)

  const InitialStore: Counter := Counter(0)

  function StoreIncrement(c: Counter): (r: Counter)
    ensures r.count == c.count + 1
  {
    Counter(c.count + 1)
  }

  function StoreDecrement(c: Counter): (r: Counter)
    ensures r.count == c.count - 1
  {
    Counter(c.count - 1)
  }

  function StoreReset(c: Counter): (r: Counter)
    ensures r == InitialStore
  {
    Counter(0)
  }

  function StoreIncrementBy(c: Counter, value: int): (r: Counter)
    ensures r.count == c.count + value
  {
    Counter(c.count + value)
  }

  /** Increment and decrement undo each other. */
  lemma IncrementDecrementInverse(c: Counter)
    ensures StoreDecrement(StoreIncrement(c)) == c
    ensures StoreIncrement(StoreDecrement(c)) == c
  {
  }

  /** Pressing increment n times. */
  function Increments(c: Counter, n: nat): Counter
    decreases n
  {
    if n == 0 then c else StoreIncrement(Increments(c, n - 1))
  }

  /** `incrementBy(n)` for a non-negative n is n presses of increment. */
  lemma {:induction false} IncrementByIsRepeatedIncrement(c: Counter, n: nat)
    ensures StoreIncrementBy(c, n) == Increments(c, n)
    decreases n
  {
    if n > 0 {
      IncrementByIsRepeatedIncrement(c, n - 1);
    }
  }

  // ---------------------------------------------------------------------
  // useMemo demo
  // ---------------------------------------------------------------------

  /** The list effect: `Array.from({length: count}, (_, i) => i + 1)`. */
  function MemoList(count: int): (r: seq<int>)
    ensures |r| == if count < 0 then 0 else count
    ensures forall i :: 0 <= i < |r| ==> r[i] == i + 1
  {
    Interval(1, count)
  }

  /** `list.filter(item => item > filterValue)`. */
  function MemoFilter(list: seq<int>, filterValue: int): (r: seq<int>)
    ensures forall i :: 0 <= i < |r| ==> r[i] in list && r[i] > filterValue
    ensures forall i :: 0 <= i < |list| && list[i] > filterValue ==> list[i] in r
  {
    Filter(list, (x: int) => x > filterValue)
  }

  /** Filtering 1..count above `filterValue` leaves the run
      max(1, filterValue + 1) .. count. */
  lemma {:induction false} MemoFilterOfList(count: int, filterValue: int)
    ensures MemoFilter(Interval(1, count), filterValue) == Interval(if filterValue < 0 then 1 else filterValue + 1, count)
    decreases count
  {
    var lo := if filterValue < 0 then 1 else filterValue + 1;
    if count >= 1 {
      var l := Interval(1, count);
      assert l[..|l| - 1] == Interval(1, count - 1);
      MemoFilterOfList(count - 1, filterValue);
      if count > filterValue {
        assert Interval(lo, count) == Interval(lo, count - 1) + [count];
      }
    }
  }

  /** The memoised calculation: a million increments of a local, plus count. */
  method MemoizedCalculation(count: int) returns (r: int)
    ensures r == 1000000 + count
  {
    var result := 0;
    var i := 0;
    while i < 1000000
      invariant 0 <= i <= 1000000
      invariant result == i
    {
      result := result + 1;
      i := i + 1;
    }
    r := result + count;
  }
}

=== FILE: imperative_form.dfy ===
/** The form that exposes `reset`, `validate` and `submit` to its parent
    through a ref. The submitted data's JSON text is left as the data
    itself. */
module ImperativeForm {
  import opened Optional
  import opened Patterns

  datatype ContactForm = ContactForm(name: string, email: string)

  type Errors = map<string, string>

  const BlankForm: ContactForm := ContactForm("", "")

  /** The error map `validate()` builds: a name is required, and an e-mail
      must be given and look like one. */
  function ValidationErrors(f: ContactForm): (r: Errors)
    ensures "name" in r <==> f.name == ""
    ensures "email" in r <==> !EmailLike(f.email)
    ensures "name" in r ==> r["name"] == "Name is required"
    ensures "email" in r ==> r["email"] == (if f.email == "" then "Email is required" else "Email is invalid")
    ensures forall k :: k in r ==> k == "name" || k == "email"
  {
    var e := if f.name == "" then map["name" := "Name is required"] else map[];
    if f.email == "" then e["email" := "Email is required"]
    else if !EmailLike(f.email) then e["email" := "Email is invalid"]
    else e
  }

  /** `validate()`: the errors become the new error map, and the form is
      valid exactly when both fields are acceptable. */
  function Validate(f: ContactForm): (r: (bool, Errors))
    ensures r.1 == ValidationErrors(f)
    ensures r.0 <==> f.name != "" && EmailLike(f.email)
  {
    var e := ValidationErrors(f);
    if f.name != "" && EmailLike(f.email) then
      assert e == map[];
      (true, e)
    else
      assert e != map[];
      (false, e)
  }

  /** `reset()`: both fields blank and no errors. */
  function Reset(f: ContactForm, errors: Errors): (r: (ContactForm, Errors))
    ensures r.0.name == "" && r.0.email == "" && |r.1| == 0
  {
    (BlankForm, map[])
  }

  /** `submit()`: validate, and report the data to the parent only when it
      is valid. */
  function Submit(f: ContactForm): (r: (Errors, Option<ContactForm>))
    ensures r.0 == ValidationErrors(f)
    ensures r.1.Some? <==> Validate(f).0
    ensures r.1.Some? ==> r.1.value == f
  {
    var (ok, e) := Validate(f);
    (e, if ok then Some(f) else None)
  }

  /** `handleChange`: store the value under its field and drop that field's
      error if it had a non-empty one; other errors stay. */
  function HandleChange(f: ContactForm, errors: Errors, name: string, value: string): (r: (ContactForm, Errors))
    ensures name == "name" ==> r.0 == f.(name := value)
    ensures name == "email" ==> r.0 == f.(email := value)
    ensures name != "name" && name != "email" ==> r.0 == f
    ensures name in errors && errors[name] != "" ==> r.1 == errors - {name}
    ensures !(name in errors && errors[name] != "") ==> r.1 == errors
  {
    var g := if name == "name" then f.(name := value) else if name == "email" then f.(email := value) else f;
    (g, if name in errors && errors[name] != "" then errors - {name} else errors)
  }

  /** Editing a field after a failed validation removes exactly that
      field's error; a new validation then reports on the edited form. */
  lemma EditClearsOnlyThatError(f: ContactForm, value: string)
    ensures var (g, e) := HandleChange(f, ValidationErrors(f), "email", value);
      "email" !in e && ("name" in e <==> f.name == "") && g.name == f.name
  {
  }
}

=== FILE: js_array.dfy ===
/** Array operations of the JavaScript runtime used by the demo components:
    `filter`, `slice`, `indexOf`, the summing `reduce`, `Math.max(0, ...xs)`
    and `Array.from({length: n}, (_, i) => i + 1)`. */
module JsArray {

  /** `s.filter(p)`: the elements satisfying `p`, in their original order. */
  function Filter<T>(s: seq<T>, p: T -> bool): (r: seq<T>)
    ensures |r| <= |s|
    ensures forall i :: 0 <= i < |r| ==> r[i] in s && p(r[i])
    ensures forall i :: 0 <= i < |s| && p(s[i]) ==> s[i] in r
    decreases |s|
  {
    if |s| == 0 then []
    else
      var rest := Filter(s[..|s| - 1], p);
      assert s == s[..|s| - 1] + [s[|s| - 1]];
      if p(s[|s| - 1]) then rest + [s[|s| - 1]] else rest
  }

  /** Filtering distributes over concatenation: the relative order of the
      kept elements is the order they had in the input. */
  lemma {:induction false} FilterAppend<T>(a: seq<T>, b: seq<T>, p: T -> bool)
    ensures Filter(a + b, p) == Filter(a, p) + Filter(b, p)
    decreases |b|
  {
    if |b| == 0 {
      assert a + b == a;
    } else {
      var b' := b[..|b| - 1];
      assert (a + b)[..|a + b| - 1] == a + b';
      FilterAppend(a, b', p);
    }
  }

  /** A filter that rejects nothing returns its input. */
  lemma {:induction false} FilterKeepsAll<T>(s: seq<T>, p: T -> bool)
    requires forall i :: 0 <= i < |s| ==> p(s[i])
    ensures Filter(s, p) == s
    decreases |s|
  {
    if |s| > 0 {
      FilterKeepsAll(s[..|s| - 1], p);
      assert s == s[..|s| - 1] + [s[|s| - 1]];
    }
  }

  /** A filter that keeps an element it also keeps the preceding ones of:
      the filtered sequence is exactly as long as the input only when
      nothing was dropped. */
  lemma {:induction false} FilterSameLength<T>(s: seq<T>, p: T -> bool)
    requires |Filter(s, p)| == |s|
    ensures forall i :: 0 <= i < |s| ==> p(s[i])
    ensures Filter(s, p) == s
    decreases |s|
  {
    if |s| > 0 {
      var init := s[..|s| - 1];
      assert |Filter(init, p)| <= |init|;
      assert p(s[|s| - 1]);
      FilterSameLength(init, p);
      assert s == init + [s[|s| - 1]];
    }
  }

  /** A filter drops something exactly when some element fails, and returns
      its input exactly when every element passes. */
  lemma FilterShrinks<T>(s: seq<T>, p: T -> bool)
    ensures |Filter(s, p)| < |s| <==> exists i :: 0 <= i < |s| && !p(s[i])
    ensures Filter(s, p) == s <==> forall i :: 0 <= i < |s| ==> p(s[i])
  {
    if |Filter(s, p)| == |s| {
      FilterSameLength(s, p);
    }
    if forall i :: 0 <= i < |s| ==> p(s[i]) {
      FilterKeepsAll(s, p);
    }
  }

  /** An element of a filter is an element of the input that passes. */
  lemma FilterMember<T>(s: seq<T>, p: T -> bool, x: T)
    requires x in Filter(s, p)
    ensures x in s && p(x)
  {
    var f := Filter(s, p);
    var i :| 0 <= i < |f| && f[i] == x;
  }

  /** Two predicates that agree on the elements of `s` filter it alike. */
  lemma {:induction false} FilterCongruent<T>(s: seq<T>, p: T -> bool, q: T -> bool)
    requires forall i :: 0 <= i < |s| ==> p(s[i]) == q(s[i])
    ensures Filter(s, p) == Filter(s, q)
    decreases |s|
  {
    if |s| > 0 {
      FilterCongruent(s[..|s| - 1], p, q);
    }
  }

  /** The sum `s.reduce((acc, x) => acc + x, 0)`, folded from the left. */
  function Sum(s: seq<int>): int
    decreases |s|
  {
    if |s| == 0 then 0 else Sum(s[..|s| - 1]) + s[|s| - 1]
  }

  lemma {:induction false} SumAppend(a: seq<int>, b: seq<int>)
    ensures Sum(a + b) == Sum(a) + Sum(b)
    decreases |b|
  {
    if |b| > 0 {
      assert (a + b)[..|a + b| - 1] == a + b[..|b| - 1];
      SumAppend(a, b[..|b| - 1]);
    } else {
      assert a + b == a;
    }
  }

  /** `Math.max(0, ...xs)`. */
  function MaxOrZero(xs: seq<int>): (m: int)
    ensures m >= 0
    ensures forall i :: 0 <= i < |xs| ==> xs[i] <= m
    ensures m == 0 || m in xs
    decreases |xs|
  {
    if |xs| == 0 then 0
    else
      var m := MaxOrZero(xs[..|xs| - 1]);
      assert forall i :: 0 <= i < |xs| - 1 ==> xs[..|xs| - 1][i] == xs[i];
      if xs[|xs| - 1] > m then xs[|xs| - 1] else m
  }

  /** `s.slice(start, end)`: negative bounds count from the end, bounds are
      clamped to the sequence, and an empty range gives an empty result. */
  function Clamp(k: int, len: nat): (r: nat)
    ensures r <= len
  {
    if k < 0 then (if len + k < 0 then 0 else len + k) else if k > len then len else k
  }

  function Slice<T>(s: seq<T>, start: int, end: int): (r: seq<T>)
    ensures 0 <= start <= end <= |s| ==> r == s[start..end]
    ensures 0 <= end <= start ==> r == []
  {
    var a := Clamp(start, |s|);
    var b := Clamp(end, |s|);
    if a < b then s[a..b] else []
  }

  /** Every element of a slice is an element of the sliced sequence. */
  lemma SliceMembers<T>(s: seq<T>, start: int, end: int)
    ensures forall k :: 0 <= k < |Slice(s, start, end)| ==> Slice(s, start, end)[k] in s
  {
    var a := Clamp(start, |s|);
    var b := Clamp(end, |s|);
    if a < b {
      forall k | 0 <= k < b - a ensures s[a..b][k] in s {
        assert s[a..b][k] == s[a + k];
      }
    }
  }

  /** `s.indexOf(x)`: the first position holding `x`, or -1. */
  function IndexOf<T(==)>(s: seq<T>, x: T): (k: int)
    ensures -1 <= k < |s|
    ensures k == -1 <==> x !in s
    ensures 0 <= k ==> s[k] == x && forall j :: 0 <= j < k ==> s[j] != x
    decreases |s|
  {
    if |s| == 0 then -1
    else if s[0] == x then 0
    else
      var k := IndexOf(s[1..], x);
      if k == -1 then -1 else k + 1
  }

  /** Pairwise distinct elements, as the demo's item objects are. */
  predicate Distinct<T(==)>(s: seq<T>) {
    forall i, j :: 0 <= i < j < |s| ==> s[i] != s[j]
  }

  /** Filtering keeps a sequence of distinct elements distinct. */
  lemma {:induction false} FilterDistinct<T>(s: seq<T>, p: T -> bool)
    requires Distinct(s)
    ensures Distinct(Filter(s, p))
    decreases |s|
  {
    if |s| > 0 {
      var init := s[..|s| - 1];
      FilterDistinct(init, p);
      assert s[|s| - 1] !in init;
    }
  }

  /** In a sequence of distinct elements, `indexOf` of the k-th element is k. */
  lemma IndexOfDistinct<T>(s: seq<T>, k: nat)
    requires Distinct(s)
    requires k < |s|
    ensures IndexOf(s, s[k]) == k
  {
  }

  /** `Array.from({length: n}, (_, i) => i + 1)` shifted to start at `lo`:
      the integers lo, lo+1, ..., hi in increasing order. */
  function Interval(lo: int, hi: int): (r: seq<int>)
    ensures |r| == if hi < lo then 0 else hi - lo + 1
    ensures forall i :: 0 <= i < |r| ==> r[i] == lo + i
    decreases hi - lo
  {
    if hi < lo then [] else Interval(lo, hi - 1) + [hi]
  }
}

=== FILE: js_number.dfy ===
/** Integer arithmetic as JavaScript numbers perform it on small integers. */
module JsNumber {

  /** `a % b` for a positive divisor: the remainder takes the sign of the
      dividend (truncating division), unlike Dafny's Euclidean `%`. */
  function Rem(a: int, b: int): (r: int)
    requires b > 0
    ensures -b < r < b
    ensures a >= 0 ==> r >= 0 && r == a % b
    ensures a <= 0 ==> r <= 0
  {
    if a >= 0 then a % b else -((-a) % b)
  }

  /** The remainder is odd in the dividend. */
  lemma RemNegate(a: int, b: int)
    requires b > 0
    ensures Rem(-a, b) == -Rem(a, b)
  {
  }

  lemma RemExamples()
    ensures Rem(7, 4) == 3 && Rem(-1, 4) == -1 && Rem(-5, 3) == -2 && Rem(3, 3) == 0
  {
  }
}

=== FILE: js_string.dfy ===
/** String operations of the JavaScript runtime that the demo components rely on:
    whitespace as `String.prototype.trim` and the regular-expression class `\s`
    understand it, ASCII lower-casing, `includes`, and decimal rendering of
    non-negative integers in template literals. */
module JsString {

  /** The characters JavaScript treats as white space or line terminators
      (`trim` removes them, `\s` matches them, `\S` matches everything else). */
  predicate IsSpace(c: char) {
    || c == ' ' || c == '\t' || c == '\n' || c == '\r'
    || c == '\U{000B}' || c == '\U{000C}' || c == '\U{00A0}' || c == '\U{1680}'
    || ('\U{2000}' <= c <= '\U{200A}')
    || c == '\U{2028}' || c == '\U{2029}' || c == '\U{202F}' || c == '\U{205F}'
    || c == '\U{3000}' || c == '\U{FEFF}'
  }

  /** `s.trim()` is the empty string, i.e. `s.trim()` is falsy. */
  predicate IsBlank(s: string) {
    forall i :: 0 <= i < |s| ==> IsSpace(s[i])
  }

  predicate IsAsciiUpper(c: char) { 'A' <= c <= 'Z' }
  predicate IsAsciiLower(c: char) { 'a' <= c <= 'z' }
  predicate IsAsciiDigit(c: char) { '0' <= c <= '9' }

  function LowerChar(c: char): (r: char)
    ensures IsAsciiUpper(c) ==> IsAsciiLower(r) && r as int == c as int + 32
    ensures !IsAsciiUpper(c) ==> r == c
    ensures !IsAsciiUpper(r)
  {
    if IsAsciiUpper(c) then (c as int + 32) as char else c
  }

  /** `s.toLowerCase()`, restricted to the ASCII letters. */
  function Lower(s: string): (r: string)
    ensures |r| == |s|
    ensures forall i :: 0 <= i < |s| ==> r[i] == LowerChar(s[i])
  {
    seq(|s|, i requires 0 <= i < |s| => LowerChar(s[i]))
  }

  /** Lower-casing twice is lower-casing once, so a lower-cased query and
      the query itself select the same items. */
  lemma LowerIdempotent(s: string)
    ensures Lower(Lower(s)) == Lower(s)
  {
    assert forall i :: 0 <= i < |s| ==> Lower(Lower(s))[i] == Lower(s)[i];
  }

  /** `sub` occurs in `s` starting at offset `i`. */
  predicate OccursAt(s: string, sub: string, i: int) {
    0 <= i <= |s| - |sub| && s[i..i + |sub|] == sub
  }

  /** `s.includes(sub)`: `sub` occurs in `s` at some offset. */
  predicate Includes(s: string, sub: string) {
    exists i | 0 <= i <= |s| - |sub| :: OccursAt(s, sub, i)
  }

  lemma IncludesEmpty(s: string)
    ensures Includes(s, "")
  {
    assert OccursAt(s, "", 0);
  }

  function DigitChar(d: nat): (c: char)
    requires d < 10
    ensures IsAsciiDigit(c)
  {
    "0123456789"[d]
  }

  /** Decimal rendering of a non-negative integer, as `${n}` produces it. */
  function Decimal(n: nat): (r: string)
    ensures |r| > 0
    ensures forall i :: 0 <= i < |r| ==> IsAsciiDigit(r[i])
    ensures n > 0 ==> r[0] != '0'
  {
    if n < 10 then [DigitChar(n)] else Decimal(n / 10) + [DigitChar(n % 10)]
  }
}

=== FILE: option.dfy ===
/** JavaScript's `undefined` / `null` next to a present value. */
module Optional {
  datatype Option<T> = None | Some(value: T)
}

=== FILE: patterns.dfy ===
/** The regular expressions the form validators test strings against,
    each written out as the set of strings it matches. */
module Patterns {
  import opened JsString

  /** The unanchored pattern `\S+@\S+\.\S+` matches `s` with its `@` at
      offset `at` and its `.` at offset `dot`: one or more non-space
      characters before the `@`, one or more between the two marks, one or
      more after the `.`, all inside one run of non-space characters. */
  predicate EmailMatchAt(s: string, at: int, dot: int) {
    && 1 <= at && at + 2 <= dot && dot + 2 <= |s|
    && s[at] == '@' && s[dot] == '.'
    && forall k :: at - 1 <= k <= dot + 1 ==> !IsSpace(s[k])
  }

  /** `/\S+@\S+\.\S+/.test(s)`. */
  predicate EmailLike(s: string) {
    exists at, dot | 0 <= at < |s| && 0 <= dot < |s| :: EmailMatchAt(s, at, dot)
  }

  /** `/[A-Z]/.test(s)`. */
  predicate HasUpper(s: string) {
    exists i | 0 <= i < |s| :: IsAsciiUpper(s[i])
  }

  /** `/[a-z]/.test(s)`. */
  predicate HasLower(s: string) {
    exists i | 0 <= i < |s| :: IsAsciiLower(s[i])
  }

  /** `/[0-9]/.test(s)`. */
  predicate HasDigit(s: string) {
    exists i | 0 <= i < |s| :: IsAsciiDigit(s[i])
  }

  predicate AllDigits(s: string) {
    forall i :: 0 <= i < |s| ==> IsAsciiDigit(s[i])
  }

  /** `/^\d{5}(-\d{4})?$/.test(s)`: five digits, optionally followed by a
      hyphen and four digits, and nothing else. */
  predicate ZipLike(s: string) {
    || (|s| == 5 && AllDigits(s))
    || (|s| == 10 && AllDigits(s[..5]) && s[5] == '-' && AllDigits(s[6..]))
  }

  lemma EmailExamples()
    ensures EmailLike("ada@example.org")
    ensures EmailLike("say hi to a@b.c today")
    ensures !EmailLike("ada@example")
    ensures !EmailLike("@b.c")
    ensures !EmailLike("a @b.c")
  {
    assert EmailMatchAt("ada@example.org", 3, 11);
    assert EmailMatchAt("say hi to a@b.c today", 11, 13);
    var spaced := "a @b.c";
    assert spaced[1] == ' ';
    assert forall at :: 0 <= at < |spaced| && spaced[at] == '@' ==> at == 2;
  }

  lemma ZipExamples()
    ensures ZipLike("02134") && ZipLike("02134-1234")
    ensures !ZipLike("2134") && !ZipLike("02134-123") && !ZipLike("02134 1234") && !ZipLike("0213a")
  {
    assert !IsAsciiDigit('a');
    assert "0213a"[4] == 'a';
  }
}

=== FILE: performance.dfy ===
/** The performance-optimisation demos: a virtualised list with 60px rows,
    the memoisation demo's loop, threshold filter and add/remove handlers,
    the summing `PerformanceDemo`, and the main-thread Fibonacci. */
module Performance {
  import opened JsArray
  import opened Windowing
  import opened VirtualList

  const RowHeight := 60

  /** `VirtualizedListDemo`: the filtered list in 60px rows under a 400px
      viewport with an overscan of 5, the scroll height being 60px per
      filtered item. */
  function VirtualizedList(items: seq<Item>, query: string, scrollTop: int): (v: View<Item>)
    requires Distinct(items)
    ensures 0 <= v.range.startIndex && v.range.endIndex <= |FilterItems(items, query)| - 1
    ensures |v.tops| == |v.visible|
    ensures forall k :: 0 <= k < |v.visible| ==> v.visible[k] in items && TextMatches(query)(v.visible[k])
    ensures scrollTop >= 0 ==> PlacedAt(v, FilterItems(items, query), 60)
    ensures CoversViewport(v.range, |FilterItems(items, query)|, 60, ContainerHeight, scrollTop)
  {
    FilteredWindow(items, query, RowHeight, ContainerHeight, Overscan, scrollTop)
  }

  function VirtualizedTotalHeight(items: seq<Item>, query: string): (t: int)
    ensures t == 60 * |FilterItems(items, query)|
    ensures query == "" ==> t == 60 * |items|
  {
    |FilterItems(items, query)| * RowHeight
  }

  /** The memoised "expensive calculation": a million-step loop adding
      `count` each time. */
  method ExpensiveCalculation(count: int) returns (result: int)
    ensures result == 1000000 * count
  {
    result := 0;
    var i := 0;
    while i < 1000000
      invariant 0 <= i <= 1000000
      invariant result == i * count
    {
      result := result + count;
      i := i + 1;
    }
  }

  /** `items.filter(item => item > threshold)`: the items above the
      threshold, and nothing is dropped exactly when every item is above it. */
  function AboveThreshold(items: seq<int>, threshold: int): (r: seq<int>)
    ensures forall i :: 0 <= i < |r| ==> r[i] in items && r[i] > threshold
    ensures forall i :: 0 <= i < |items| && items[i] > threshold ==> items[i] in r
    ensures r == items <==> forall i :: 0 <= i < |items| ==> items[i] > threshold
  {
    var above := (x: int) => x > threshold;
    FilterShrinks(items, above);
    Filter(items, above)
  }

  /** Items are kept in their original order: filtering a concatenation
      filters each part. */
  lemma AboveThresholdKeepsOrder(a: seq<int>, b: seq<int>, threshold: int)
    ensures AboveThreshold(a + b, threshold) == AboveThreshold(a, threshold) + AboveThreshold(b, threshold)
  {
    FilterAppend(a, b, (x: int) => x > threshold);
  }

  /** `handleAddItem`: append `length + 1`. */
  function AddItem(items: seq<int>): (r: seq<int>)
    ensures |r| == |items| + 1
    ensures r[..|items|] == items
    ensures r[|items|] == |r|
  {
    items + [|items| + 1]
  }

  /** Starting from [1, 2, 3, 4, 5], adding keeps the list equal to
      1, 2, ..., n. */
  lemma AddItemKeepsRange(n: nat)
    ensures AddItem(Interval(1, n)) == Interval(1, n + 1)
  {
  }

  /** `handleRemoveItem(index)`: keep every element whose position is not
      `index`, scanning the list from the front. */
  function RemoveAt(items: seq<int>, index: int): (r: seq<int>)
    ensures 0 <= index < |items| ==> r == items[..index] + items[index + 1..]
    ensures !(0 <= index < |items|) ==> r == items
    decreases |items|
  {
    if |items| == 0 then []
    else
      var init := items[..|items| - 1];
      var rest := RemoveAt(init, index);
      if |items| - 1 == index then rest
      else
        assert init + [items[|items| - 1]] == items;
        rest + [items[|items| - 1]]
  }

  /** `expensiveValue`: the sum of the items. For the list 1..n that the
      add button maintains it is n(n+1)/2. */
  lemma {:induction false} SumOfRange(n: nat)
    ensures 2 * Sum(Interval(1, n)) == n * (n + 1)
  {
    if n > 0 {
      var r := Interval(1, n);
      assert r[..|r| - 1] == Interval(1, n - 1);
      assert Sum(r) == Sum(Interval(1, n - 1)) + n;
      SumOfRange(n - 1);
      assert n * (n + 1) == (n - 1) * n + 2 * n;
    }
  }

  /** Adding an item raises the sum by the new length. */
  lemma AddItemSum(items: seq<int>)
    ensures Sum(AddItem(items)) == Sum(items) + |items| + 1
  {
    assert AddItem(items)[..|items|] == items;
  }

  /** `calculateFibonacciMainThread`: n itself for n <= 1, otherwise the sum
      of the two previous values. */
  function Fib(n: int): (r: int)
    ensures n <= 1 ==> r == n
    ensures n >= 0 ==> r >= 0
    ensures n >= 2 ==> r >= 1
    decreases if n < 0 then 0 else n
  {
    if n <= 1 then n else Fib(n - 1) + Fib(n - 2)
  }

  /** The sequence never decreases from 0 on. */
  lemma {:induction false} FibMonotone(m: nat, n: nat)
    requires m <= n
    ensures Fib(m) <= Fib(n)
    decreases n - m
  {
    if m < n {
      FibMonotone(m, n - 1);
    }
  }

  /** A bottom-up reference computation agrees with the recursive one. */
  method FibIterative(n: nat) returns (r: int)
    ensures r == Fib(n)
  {
    if n <= 1 { return n; }
    var a, b := 0, 1;
    var i := 1;
    while i < n
      invariant 1 <= i <= n
      invariant a == Fib(i - 1) && b == Fib(i)
    {
      a, b := b, a + b;
      i := i + 1;
    }
    r := b;
  }
}

=== FILE: schema_forms.dfy ===
/** The schema-validated forms: the registration schema and the three
    schemas of the multi-step form, and the step progression around them.
    A parse checks every field, and a field shows the message of its first
    failed check. The schema library's e-mail check is a parameter
    `isEmail`. */
module SchemaForms {
  import opened Optional
  import opened Patterns

  const PasswordTooShort := "Password must be at least 8 characters"
  const PasswordNoUpper := "Password must contain at least one uppercase letter"
  const PasswordNoLower := "Password must contain at least one lowercase letter"
  const PasswordNoDigit := "Password must contain at least one number"
  const PasswordsDiffer := "Passwords do not match"
  const InvalidEmail := "Please enter a valid email address"

  // ---------------------------------------------------------------------
  // Registration form
  // ---------------------------------------------------------------------

  /** `bio` is optional; `role` is any string (its "required" message only
      fires on a missing value, and the form always supplies one). */
  datatype Registration = Registration(
    username: string, email: string, password: string, confirmPassword: string,
    bio: Option<string>, role: string, terms: bool)

  /** The message shown under each field after a parse: the first failed
      check of that field, if any. */
  datatype RegistrationErrors = RegistrationErrors(
    username: Option<string>, email: Option<string>, password: Option<string>,
    confirmPassword: Option<string>, bio: Option<string>, terms: Option<string>)

  const NoRegistrationErrors := RegistrationErrors(None, None, None, None, None, None)

  /** The i-th password check, in schema order. */
  predicate PasswordCheck(p: string, i: int) {
    if i == 0 then |p| >= 8
    else if i == 1 then HasUpper(p)
    else if i == 2 then HasLower(p)
    else HasDigit(p)
  }

  function PasswordCheckMessage(i: int): string {
    if i == 0 then PasswordTooShort
    else if i == 1 then PasswordNoUpper
    else if i == 2 then PasswordNoLower
    else PasswordNoDigit
  }

  /** The password's message is that of the first of its four checks that
      fails; there is none when all pass. */
  function PasswordError(p: string): (r: Option<string>)
    ensures r.None? <==> forall i :: 0 <= i < 4 ==> PasswordCheck(p, i)
    ensures r.Some? ==> exists i :: 0 <= i < 4 && !PasswordCheck(p, i) && r.value == PasswordCheckMessage(i)
                                   && (forall j :: 0 <= j < i ==> PasswordCheck(p, j))
  {
    if |p| < 8 then
      assert !PasswordCheck(p, 0);
      Some(PasswordTooShort)
    else if !HasUpper(p) then
      assert !PasswordCheck(p, 1) && PasswordCheck(p, 0);
      Some(PasswordNoUpper)
    else if !HasLower(p) then
      assert !PasswordCheck(p, 2) && PasswordCheck(p, 0) && PasswordCheck(p, 1);
      Some(PasswordNoLower)
    else if !HasDigit(p) then
      assert !PasswordCheck(p, 3) && PasswordCheck(p, 0) && PasswordCheck(p, 1) && PasswordCheck(p, 2);
      Some(PasswordNoDigit)
    else
      assert forall i :: 0 <= i < 4 ==> PasswordCheck(p, i);
      None
  }

  /** Username: at least 3 and at most 20 characters, the lower bound
      checked first. */
  function UsernameError(u: string): (r: Option<string>)
    ensures r.None? <==> 3 <= |u| <= 20
    ensures |u| < 3 ==> r == Some("Username must be at least 3 characters")
    ensures |u| > 20 ==> r == Some("Username must be at most 20 characters")
  {
    if |u| < 3 then Some("Username must be at least 3 characters")
    else if |u| > 20 then Some("Username must be at most 20 characters")
    else None
  }

  /** The single check of a field: its message when the check fails. */
  function Unless(holds: bool, message: string): (r: Option<string>)
    ensures r.None? <==> holds
    ensures r.Some? ==> r.value == message
  {
    if holds then None else Some(message)
  }

  predicate BioOk(bio: Option<string>) {
    bio.None? || |bio.value| <= 160
  }

  /** A parse of the registration schema. Every field is checked, and the
      refinement comparing the passwords runs too (a failed length or
      pattern check does not abort the parse); its issue sits on the
      `confirmPassword` path. */
  function ParseRegistration(d: Registration, isEmail: string -> bool): RegistrationErrors {
    RegistrationErrors(
      UsernameError(d.username),
      Unless(isEmail(d.email), InvalidEmail),
      PasswordError(d.password),
      Unless(d.password == d.confirmPassword, PasswordsDiffer),
      Unless(BioOk(d.bio), "Bio must be at most 160 characters"),
      Unless(d.terms, "You must accept the terms and conditions"))
  }

  /** The registration is accepted exactly when every field rule holds and
      the passwords agree; a mismatch is reported under `confirmPassword`
      whatever else fails. */
  lemma RegistrationAccepted(d: Registration, isEmail: string -> bool)
    ensures ParseRegistration(d, isEmail) == NoRegistrationErrors <==>
      && 3 <= |d.username| <= 20
      && isEmail(d.email)
      && |d.password| >= 8 && HasUpper(d.password) && HasLower(d.password) && HasDigit(d.password)
      && d.password == d.confirmPassword
      && BioOk(d.bio)
      && d.terms
    ensures ParseRegistration(d, isEmail).confirmPassword == Some(PasswordsDiffer)
      <==> d.password != d.confirmPassword
  {
    var p := d.password;
    assert (forall i :: 0 <= i < 4 ==> PasswordCheck(p, i)) <==>
      PasswordCheck(p, 0) && PasswordCheck(p, 1) && PasswordCheck(p, 2) && PasswordCheck(p, 3);
  }

  // ---------------------------------------------------------------------
  // Multi-step form
  // ---------------------------------------------------------------------

  datatype Personal = Personal(firstName: string, lastName: string, email: string)
  datatype Address = Address(street: string, city: string, state: string, zipCode: string)
  datatype Account = Account(username: string, password: string, confirmPassword: string)

  /** The accumulated `formData`: one record per step. */
  datatype FormData = FormData(personal: Personal, address: Address, account: Account)

  const BlankData: FormData :=
    FormData(Personal("", "", ""), Address("", "", "", ""), Account("", "", ""))

  predicate PersonalOk(p: Personal, isEmail: string -> bool) {
    |p.firstName| >= 2 && |p.lastName| >= 2 && isEmail(p.email)
  }

  predicate AddressOk(a: Address) {
    |a.street| >= 5 && |a.city| >= 2 && |a.state| >= 2 && ZipLike(a.zipCode)
  }

  predicate AccountOk(a: Account) {
    |a.username| >= 3 && |a.password| >= 8 && a.password == a.confirmPassword
  }

  /** Each step schema's messages, field by field. */
  datatype PersonalErrors = PersonalErrors(firstName: Option<string>, lastName: Option<string>, email: Option<string>)
  datatype AddressErrors = AddressErrors(street: Option<string>, city: Option<string>, state: Option<string>, zipCode: Option<string>)
  datatype AccountErrors = AccountErrors(username: Option<string>, password: Option<string>, confirmPassword: Option<string>)

  function ParsePersonal(p: Personal, isEmail: string -> bool): (r: PersonalErrors)
    ensures r == PersonalErrors(None, None, None) <==> PersonalOk(p, isEmail)
  {
    PersonalErrors(
      Unless(|p.firstName| >= 2, "First name must be at least 2 characters"),
      Unless(|p.lastName| >= 2, "Last name must be at least 2 characters"),
      Unless(isEmail(p.email), InvalidEmail))
  }

  /** The ZIP code must be five digits, optionally followed by a hyphen and
      four more. */
  function ParseAddress(a: Address): (r: AddressErrors)
    ensures r == AddressErrors(None, None, None, None) <==> AddressOk(a)
  {
    AddressErrors(
      Unless(|a.street| >= 5, "Street address must be at least 5 characters"),
      Unless(|a.city| >= 2, "City must be at least 2 characters"),
      Unless(|a.state| >= 2, "State must be at least 2 characters"),
      Unless(ZipLike(a.zipCode), "Please enter a valid ZIP code"))
  }

  /** The password refinement reports on the confirmation's path. */
  function ParseAccount(a: Account): (r: AccountErrors)
    ensures r == AccountErrors(None, None, None) <==> AccountOk(a)
    ensures r.confirmPassword == Some(PasswordsDiffer) <==> a.password != a.confirmPassword
  {
    AccountErrors(
      Unless(|a.username| >= 3, "Username must be at least 3 characters"),
      Unless(|a.password| >= 8, PasswordTooShort),
      Unless(a.password == a.confirmPassword, PasswordsDiffer))
  }

  datatype MultiStep = MultiStep(step: int, data: FormData)

  const InitialMultiStep: MultiStep := MultiStep(1, BlankData)

  /** A submit of the form on screen, with the values it holds, or a click
      on Back. */
  datatype StepAction =
    | SubmitPersonal(p: Personal)
    | SubmitAddress(a: Address)
    | SubmitAccount(acc: Account)
    | Back

  /** Which controls are on screen: each step shows its own form, and Back
      appears on steps 2 and 3. */
  predicate Shown(w: MultiStep, a: StepAction) {
    match a
    case SubmitPersonal(_) => w.step == 1
    case SubmitAddress(_) => w.step == 2
    case SubmitAccount(_) => w.step == 3
    case Back => w.step == 2 || w.step == 3
  }

  /** One action. A submit whose schema reports an issue leaves everything
      as it was; a valid submit merges its fields into the data and moves to
      the next step (the last step stays put). Back moves one step back and
      keeps the data. `None` is an action not on screen. */
  function MultiStepStep(w: MultiStep, a: StepAction, isEmail: string -> bool): (r: Option<MultiStep>)
    ensures r.Some? <==> Shown(w, a)
    ensures r.Some? && a.Back? ==> r.value == MultiStep(w.step - 1, w.data)
    ensures r.Some? && a.SubmitPersonal? ==>
      r.value == (if PersonalOk(a.p, isEmail) then MultiStep(2, w.data.(personal := a.p)) else w)
    ensures r.Some? && a.SubmitAddress? ==>
      r.value == (if AddressOk(a.a) then MultiStep(3, w.data.(address := a.a)) else w)
    ensures r.Some? && a.SubmitAccount? ==>
      r.value == (if AccountOk(a.acc) then MultiStep(3, w.data.(account := a.acc)) else w)
  {
    if !Shown(w, a) then None
    else
      match a
      case SubmitPersonal(p) =>
        if ParsePersonal(p, isEmail) == PersonalErrors(None, None, None) then Some(MultiStep(2, w.data.(personal := p))) else Some(w)
      case SubmitAddress(ad) =>
        if ParseAddress(ad) == AddressErrors(None, None, None, None) then Some(MultiStep(3, w.data.(address := ad))) else Some(w)
      case SubmitAccount(acc) =>
        if ParseAccount(acc) == AccountErrors(None, None, None) then Some(MultiStep(3, w.data.(account := acc))) else Some(w)
      case Back => Some(MultiStep(w.step - 1, w.data))
  }

  /** The step is in 1..3, and every step already passed holds data its
      schema accepted. */
  predicate Progress(w: MultiStep, isEmail: string -> bool) {
    && 1 <= w.step <= 3
    && (w.step >= 2 ==> PersonalOk(w.data.personal, isEmail))
    && (w.step == 3 ==> AddressOk(w.data.address))
  }

  lemma InitialProgress(isEmail: string -> bool)
    ensures Progress(InitialMultiStep, isEmail)
  {
  }

  lemma {:induction false} StepKeepsProgress(w: MultiStep, a: StepAction, isEmail: string -> bool)
    requires Progress(w, isEmail) && Shown(w, a)
    ensures Progress(MultiStepStep(w, a, isEmail).value, isEmail)
  {
  }
}

=== FILE: stores.dfy ===
/** The zustand todo and shopping-cart stores of the state-management demo.
    Todo ids come from the clock and are a parameter here; prices are
    integer cents. */
module Stores {
  import opened JsString
  import opened JsArray

  // ---------------------------------------------------------------------
  // Todos
  // ---------------------------------------------------------------------

  datatype Todo = Todo(id: int, text: string, completed: bool)

  /** `addTodo(text)` with `Date.now()` = `now`: one new incomplete todo at
      the end, the others untouched. */
  function AddTodo(todos: seq<Todo>, text: string, now: int): (r: seq<Todo>)
    ensures |r| == |todos| + 1
    ensures r[..|todos|] == todos
    ensures r[|todos|] == Todo(now, text, false)
  {
    todos + [Todo(now, text, false)]
  }

  function Toggled(t: Todo, id: int): Todo {
    if t.id == id then t.(completed := !t.completed) else t
  }

  /** `toggleTodo(id)`: flip `completed` on the todos with that id. Ids,
      texts and order are kept, and other todos are unchanged. */
  function ToggleTodo(todos: seq<Todo>, id: int): (r: seq<Todo>)
    ensures |r| == |todos|
    ensures forall i :: 0 <= i < |r| ==>
      r[i].id == todos[i].id && r[i].text == todos[i].text
      && (r[i].completed <==> (todos[i].completed != (todos[i].id == id)))
  {
    seq(|todos|, i requires 0 <= i < |todos| => Toggled(todos[i], id))
  }

  /** Toggling the same id twice restores the list. */
  lemma ToggleTwice(todos: seq<Todo>, id: int)
    ensures ToggleTodo(ToggleTodo(todos, id), id) == todos
  {
  }

  function IdIsNot(id: int): Todo -> bool {
    (t: Todo) => t.id != id
  }

  /** `removeTodo(id)`: no todo with that id is left, every other todo
      stays, and removing an id no todo has leaves the list as it was. */
  function RemoveTodo(todos: seq<Todo>, id: int): (r: seq<Todo>)
    ensures forall i :: 0 <= i < |r| ==> r[i].id != id && r[i] in todos
    ensures forall i :: 0 <= i < |todos| && todos[i].id != id ==> todos[i] in r
    ensures (forall i :: 0 <= i < |todos| ==> todos[i].id != id) ==> r == todos
  {
    if forall i :: 0 <= i < |todos| ==> todos[i].id != id then
      FilterKeepsAll(todos, IdIsNot(id));
      Filter(todos, IdIsNot(id))
    else
      Filter(todos, IdIsNot(id))
  }

  function IsIncomplete(t: Todo): bool { !t.completed }

  /** `clearCompleted()`: exactly the incomplete todos remain. */
  function ClearCompleted(todos: seq<Todo>): (r: seq<Todo>)
    ensures forall i :: 0 <= i < |r| ==> !r[i].completed && r[i] in todos
    ensures forall i :: 0 <= i < |todos| && !todos[i].completed ==> todos[i] in r
  {
    Filter(todos, IsIncomplete)
  }

  /** Both removals keep the survivors in their original order. */
  lemma RemovalsKeepOrder(a: seq<Todo>, b: seq<Todo>, id: int)
    ensures RemoveTodo(a + b, id) == RemoveTodo(a, id) + RemoveTodo(b, id)
    ensures ClearCompleted(a + b) == ClearCompleted(a) + ClearCompleted(b)
  {
    FilterAppend(a, b, IdIsNot(id));
    FilterAppend(a, b, IsIncomplete);
  }

  /** Clearing completed todos on a list with none completed changes
      nothing, so a second clear is a no-op. */
  lemma ClearCompletedIdempotent(todos: seq<Todo>)
    ensures ClearCompleted(ClearCompleted(todos)) == ClearCompleted(todos)
  {
    var once := ClearCompleted(todos);
    FilterKeepsAll(once, IsIncomplete);
  }

  /** The form's submit handler: text that is blank after trimming adds
      nothing and keeps the input; otherwise the untrimmed text is added and
      the input is cleared. */
  function SubmitTodo(todos: seq<Todo>, input: string, now: int): (r: (seq<Todo>, string))
    ensures IsBlank(input) ==> r == (todos, input)
    ensures !IsBlank(input) ==> r.0 == AddTodo(todos, input, now) && r.1 == ""
  {
    if IsBlank(input) then (todos, input) else (AddTodo(todos, input, now), "")
  }

  // ---------------------------------------------------------------------
  // Shopping cart
  // ---------------------------------------------------------------------

  datatype Product = Product(id: int, name: string, priceCents: int)
  datatype CartItem = CartItem(product: Product, quantity: int)

  /** No product appears in two cart entries. */
  predicate UniqueIds(items: seq<CartItem>) {
    forall i, j :: 0 <= i < j < |items| ==> items[i].product.id != items[j].product.id
  }

  predicate HasProduct(items: seq<CartItem>, id: int) {
    exists i | 0 <= i < |items| :: items[i].product.id == id
  }

  /** `totalItems()`: the sum of the quantities. */
  function TotalItems(items: seq<CartItem>): int
    decreases |items|
  {
    if |items| == 0 then 0 else TotalItems(items[..|items| - 1]) + items[|items| - 1].quantity
  }

  /** `totalPrice()`: the sum of price times quantity, in cents. */
  function TotalPrice(items: seq<CartItem>): int
    decreases |items|
  {
    if |items| == 0 then 0
    else
      var last := items[|items| - 1];
      TotalPrice(items[..|items| - 1]) + last.product.priceCents * last.quantity
  }

  function Bumped(item: CartItem, id: int): CartItem {
    if item.product.id == id then item.(quantity := item.quantity + 1) else item
  }

  function BumpAll(items: seq<CartItem>, id: int): (r: seq<CartItem>)
    ensures |r| == |items|
    ensures forall i :: 0 <= i < |r| ==> r[i] == Bumped(items[i], id)
  {
    seq(|items|, i requires 0 <= i < |items| => Bumped(items[i], id))
  }

  /** Bumping a product no entry holds changes nothing. */
  lemma BumpAbsent(items: seq<CartItem>, id: int)
    requires !HasProduct(items, id)
    ensures BumpAll(items, id) == items
  {
    assert forall i :: 0 <= i < |items| ==> items[i].product.id != id;
  }

  /** With unique ids, bumping a present product raises the total by one. */
  lemma {:induction false} BumpTotal(items: seq<CartItem>, id: int)
    requires UniqueIds(items) && HasProduct(items, id)
    ensures TotalItems(BumpAll(items, id)) == TotalItems(items) + 1
    decreases |items|
  {
    var n := |items|;
    var init := items[..n - 1];
    var b := BumpAll(items, id);
    assert b[..n - 1] == BumpAll(init, id);
    if items[n - 1].product.id == id {
      assert !HasProduct(init, id);
      BumpAbsent(init, id);
    } else {
      var i :| 0 <= i < n && items[i].product.id == id;
      assert init[i].product.id == id;
      BumpTotal(init, id);
    }
  }

  lemma BumpPresent(items: seq<CartItem>, id: int)
    requires HasProduct(items, id)
    ensures HasProduct(BumpAll(items, id), id)
    ensures UniqueIds(items) ==> UniqueIds(BumpAll(items, id))
    ensures UniqueIds(items) ==> TotalItems(BumpAll(items, id)) == TotalItems(items) + 1
  {
    var i :| 0 <= i < |items| && items[i].product.id == id;
    assert BumpAll(items, id)[i].product.id == id;
    if UniqueIds(items) {
      BumpTotal(items, id);
    }
  }

  /** `addItem(product)`: a product already in the cart gets one more unit
      and the cart keeps its length; a new product is appended with quantity
      1. Either way the ids stay unique and the item count grows by one. */
  function AddItem(items: seq<CartItem>, p: Product): (r: seq<CartItem>)
    ensures HasProduct(items, p.id) ==> |r| == |items| && HasProduct(r, p.id)
    ensures HasProduct(items, p.id) ==> forall i :: 0 <= i < |items| ==>
      r[i].quantity == items[i].quantity + (if items[i].product.id == p.id then 1 else 0)
    ensures !HasProduct(items, p.id) ==> r == items + [CartItem(p, 1)]
    ensures forall i :: 0 <= i < |items| ==> r[i].product == items[i].product
    ensures UniqueIds(items) ==> UniqueIds(r) && TotalItems(r) == TotalItems(items) + 1
  {
    if HasProduct(items, p.id) then
      BumpPresent(items, p.id);
      BumpAll(items, p.id)
    else
      var r := items + [CartItem(p, 1)];
      assert r[..|items|] == items;
      r
  }

  function ProductIsNot(id: int): CartItem -> bool {
    (item: CartItem) => item.product.id != id
  }

  /** A filter of a cart with unique product ids has unique product ids. */
  lemma {:induction false} FilterKeepsUniqueIds(items: seq<CartItem>, p: CartItem -> bool)
    requires UniqueIds(items)
    ensures UniqueIds(Filter(items, p))
    decreases |items|
  {
    if |items| > 0 {
      var init := items[..|items| - 1];
      var last := items[|items| - 1];
      FilterKeepsUniqueIds(init, p);
      forall x | x in init ensures x.product.id != last.product.id {
        var j :| 0 <= j < |init| && init[j] == x;
      }
    }
  }

  /** `removeItem(productId)`: that product's entry goes, every other entry
      stays, nothing else appears, and product ids stay unique. A cart
      without the product is returned as it was. */
  function RemoveItem(items: seq<CartItem>, id: int): (r: seq<CartItem>)
    ensures !HasProduct(r, id)
    ensures forall i :: 0 <= i < |r| ==> r[i] in items
    ensures forall i :: 0 <= i < |items| && items[i].product.id != id ==> items[i] in r
    ensures !HasProduct(items, id) ==> r == items
    ensures UniqueIds(items) ==> UniqueIds(r)
  {
    var r := Filter(items, ProductIsNot(id));
    RemoveItemFacts(items, id);
    r
  }

  lemma RemoveItemFacts(items: seq<CartItem>, id: int)
    ensures !HasProduct(items, id) ==> Filter(items, ProductIsNot(id)) == items
    ensures UniqueIds(items) ==> UniqueIds(Filter(items, ProductIsNot(id)))
  {
    if !HasProduct(items, id) {
      FilterKeepsAll(items, ProductIsNot(id));
    }
    if UniqueIds(items) {
      FilterKeepsUniqueIds(items, ProductIsNot(id));
    }
  }

  function WithQuantity(item: CartItem, id: int, quantity: int): CartItem {
    if item.product.id == id then item.(quantity := if quantity < 0 then 0 else quantity) else item
  }

  function HasUnits(item: CartItem): bool { item.quantity > 0 }

  /** Every entry with the product's quantity set to `max(0, quantity)`. */
  function SetQuantity(items: seq<CartItem>, id: int, quantity: int): (r: seq<CartItem>)
    ensures |r| == |items|
    ensures forall i :: 0 <= i < |items| ==> r[i] == WithQuantity(items[i], id, quantity)
  {
    seq(|items|, i requires 0 <= i < |items| => WithQuantity(items[i], id, quantity))
  }

  /** `updateQuantity(productId, quantity)`: the product's quantity becomes
      `max(0, quantity)`, then every entry without units is dropped. Each
      remaining entry is an entry of the cart, the product's with its new
      quantity; nothing else appears, and product ids stay unique. */
  function UpdateQuantity(items: seq<CartItem>, id: int, quantity: int): (r: seq<CartItem>)
    ensures forall i :: 0 <= i < |r| ==> r[i].quantity >= 1
    ensures quantity <= 0 ==> !HasProduct(r, id)
    ensures forall i :: 0 <= i < |items| && items[i].product.id == id && quantity > 0 ==>
      items[i].(quantity := quantity) in r
    ensures forall i :: 0 <= i < |items| && items[i].product.id != id && items[i].quantity > 0 ==>
      items[i] in r
    ensures forall k :: 0 <= k < |r| ==>
      if r[k].product.id == id then r[k].quantity == quantity && exists i :: 0 <= i < |items| && items[i].(quantity := quantity) == r[k]
      else r[k] in items
    ensures UniqueIds(items) ==> UniqueIds(r)
  {
    var mapped := SetQuantity(items, id, quantity);
    var r := Filter(mapped, HasUnits);
    UpdateQuantityFacts(items, id, quantity, mapped, r);
    r
  }

  lemma UpdateQuantityFacts(items: seq<CartItem>, id: int, quantity: int, mapped: seq<CartItem>, r: seq<CartItem>)
    requires mapped == SetQuantity(items, id, quantity) && r == Filter(mapped, HasUnits)
    ensures forall k :: 0 <= k < |r| ==>
      if r[k].product.id == id then r[k].quantity == quantity && exists i :: 0 <= i < |items| && items[i].(quantity := quantity) == r[k]
      else r[k] in items
    ensures UniqueIds(items) ==> UniqueIds(r)
  {
    forall k | 0 <= k < |r|
      ensures if r[k].product.id == id then r[k].quantity == quantity && exists i :: 0 <= i < |items| && items[i].(quantity := quantity) == r[k]
              else r[k] in items
    {
      var i :| 0 <= i < |mapped| && mapped[i] == r[k];
      assert mapped[i] == WithQuantity(items[i], id, quantity);
    }
    if UniqueIds(items) {
      assert forall i :: 0 <= i < |items| ==> mapped[i].product == items[i].product;
      FilterKeepsUniqueIds(mapped, HasUnits);
    }
  }

  /** Removing treats each part of a cart on its own, so the entries that
      remain keep their order. */
  lemma RemoveKeepsOrder(a: seq<CartItem>, b: seq<CartItem>, id: int)
    ensures RemoveItem(a + b, id) == RemoveItem(a, id) + RemoveItem(b, id)
  {
    FilterAppend(a, b, ProductIsNot(id));
  }

  /** So does updating a quantity. */
  lemma UpdateKeepsOrder(a: seq<CartItem>, b: seq<CartItem>, id: int, quantity: int)
    ensures UpdateQuantity(a + b, id, quantity) == UpdateQuantity(a, id, quantity) + UpdateQuantity(b, id, quantity)
  {
    assert SetQuantity(a + b, id, quantity) == SetQuantity(a, id, quantity) + SetQuantity(b, id, quantity);
    FilterAppend(SetQuantity(a, id, quantity), SetQuantity(b, id, quantity), HasUnits);
  }

  /** `clearCart()`. */
  function ClearCart(items: seq<CartItem>): (r: seq<CartItem>)
    ensures |r| == 0 && TotalItems(r) == 0 && TotalPrice(r) == 0
  {
    []
  }

  /** Adding a product that is not yet in the cart raises the total price
      by that product's price. */
  lemma {:induction false} AddNewItemPrice(items: seq<CartItem>, p: Product)
    requires !HasProduct(items, p.id)
    ensures TotalPrice(AddItem(items, p)) == TotalPrice(items) + p.priceCents
  {
    var r := AddItem(items, p);
    assert r[..|r| - 1] == items;
  }
}

=== FILE: task_board.dfy ===
/** The drag-and-drop task board: tasks in three columns, moved by
    dropping, added from a text box with ids from a counter, and deleted.
    The dragged id arrives as text and is parsed; a parse that yields no
    number is `None` here. */
module TaskBoard {
  import opened Optional
  import opened JsString
  import opened JsArray

  datatype Status = Todo | InProgress | Done

  datatype Task = Task(id: int, content: string, status: Status)

  /** The tasks, the id counter and the text box. */
  datatype Board = Board(tasks: seq<Task>, nextId: int, input: string)

  const InitialTasks: seq<Task> := [
    Task(1, "Learn React basics", Done),
    Task(2, "Understand React hooks", InProgress),
    Task(3, "Master advanced patterns", Todo),
    Task(4, "Build a project", Todo),
    Task(5, "Deploy to production", Todo)
  ]

  const InitialBoard: Board := Board(InitialTasks, 6, "")

  function Moved(t: Task, id: Option<int>, target: Status): Task {
    if id.Some? && t.id == id.value then t.(status := target) else t
  }

  /** `handleDrop`: the task with the dropped id takes the target column;
      ids, contents, order and count are unchanged. */
  function Drop(tasks: seq<Task>, id: Option<int>, target: Status): (r: seq<Task>)
    ensures |r| == |tasks|
    ensures forall i :: 0 <= i < |r| ==>
      r[i].id == tasks[i].id && r[i].content == tasks[i].content
      && r[i].status == (if id == Some(tasks[i].id) then target else tasks[i].status)
    ensures id.None? ==> r == tasks
  {
    seq(|tasks|, i requires 0 <= i < |tasks| => Moved(tasks[i], id, target))
  }

  /** `addTask`: blank text changes nothing; otherwise a `todo` task with
      the counter's id and the untrimmed text is appended, the counter
      advances and the text box is cleared. */
  function AddTask(b: Board): (r: Board)
    ensures IsBlank(b.input) ==> r == b
    ensures !IsBlank(b.input) ==>
      r == Board(b.tasks + [Task(b.nextId, b.input, Todo)], b.nextId + 1, "")
  {
    if IsBlank(b.input) then b
    else Board(b.tasks + [Task(b.nextId, b.input, Todo)], b.nextId + 1, "")
  }

  function IdIsNot(id: int): Task -> bool {
    (t: Task) => t.id != id
  }

  /** `deleteTask(id)`: the tasks with another id, in order; the board
      shrinks exactly when some task has that id. */
  function DeleteTask(tasks: seq<Task>, id: int): (r: seq<Task>)
    ensures forall i :: 0 <= i < |r| ==> r[i].id != id && r[i] in tasks
    ensures forall i :: 0 <= i < |tasks| && tasks[i].id != id ==> tasks[i] in r
    ensures |r| < |tasks| <==> exists i :: 0 <= i < |tasks| && tasks[i].id == id
  {
    FilterShrinks(tasks, IdIsNot(id));
    Filter(tasks, IdIsNot(id))
  }

  function HasStatus(s: Status): Task -> bool {
    (t: Task) => t.status == s
  }

  /** `getTasksByStatus(s)`: one column. */
  function Column(tasks: seq<Task>, s: Status): (r: seq<Task>)
    ensures forall i :: 0 <= i < |r| ==> r[i].status == s && r[i] in tasks
    ensures forall i :: 0 <= i < |tasks| && tasks[i].status == s ==> tasks[i] in r
  {
    Filter(tasks, HasStatus(s))
  }

  /** The three columns split the task list: a task is shown in the column
      of its status and no other, and together the columns hold as many
      tasks as the list. */
  lemma {:induction false} ColumnsPartition(tasks: seq<Task>)
    ensures |Column(tasks, Todo)| + |Column(tasks, InProgress)| + |Column(tasks, Done)| == |tasks|
    ensures forall i, s :: 0 <= i < |tasks| ==> (tasks[i] in Column(tasks, s) <==> tasks[i].status == s)
    decreases |tasks|
  {
    if |tasks| > 0 {
      ColumnsPartition(tasks[..|tasks| - 1]);
    }
  }

  /** Ids are distinct and all below the counter. */
  predicate IdsFresh(b: Board) {
    && (forall i :: 0 <= i < |b.tasks| ==> b.tasks[i].id < b.nextId)
    && (forall i, j :: 0 <= i < j < |b.tasks| ==> b.tasks[i].id != b.tasks[j].id)
  }

  lemma InitialIdsFresh()
    ensures IdsFresh(InitialBoard)
  {
  }

  /** Every board operation keeps the ids distinct and below the counter. */
  lemma OperationsKeepIdsFresh(b: Board, id: Option<int>, target: Status, gone: int)
    requires IdsFresh(b)
    ensures IdsFresh(AddTask(b))
    ensures IdsFresh(b.(tasks := Drop(b.tasks, id, target)))
    ensures IdsFresh(b.(tasks := DeleteTask(b.tasks, gone)))
  {
    AddKeepsIdsFresh(b);
    DropKeepsIdsFresh(b, id, target);
    DeleteKeepsIdsFresh(b, gone);
  }

  lemma AddKeepsIdsFresh(b: Board)
    requires IdsFresh(b)
    ensures IdsFresh(AddTask(b))
  {
  }

  lemma DropKeepsIdsFresh(b: Board, id: Option<int>, target: Status)
    requires IdsFresh(b)
    ensures IdsFresh(b.(tasks := Drop(b.tasks, id, target)))
  {
  }

  lemma DeleteKeepsIdsFresh(b: Board, gone: int)
    requires IdsFresh(b)
    ensures IdsFresh(b.(tasks := DeleteTask(b.tasks, gone)))
  {
    var d := DeleteTask(b.tasks, gone);
    forall i | 0 <= i < |d| ensures d[i].id < b.nextId {
      FilterMember(b.tasks, IdIsNot(gone), d[i]);
    }
    forall i, j | 0 <= i < j < |d| ensures d[i].id != d[j].id {
      FilterUniqueIds(b.tasks, IdIsNot(gone), i, j);
    }
  }

  /** A filter of a list with distinct ids has distinct ids. */
  lemma {:induction false} FilterUniqueIds(tasks: seq<Task>, p: Task -> bool, i: int, j: int)
    requires forall a, c :: 0 <= a < c < |tasks| ==> tasks[a].id != tasks[c].id
    requires 0 <= i < j < |Filter(tasks, p)|
    ensures Filter(tasks, p)[i].id != Filter(tasks, p)[j].id
    decreases |tasks|
  {
    var init := tasks[..|tasks| - 1];
    var rest := Filter(init, p);
    if j < |rest| {
      FilterUniqueIds(init, p, i, j);
    } else {
      assert Filter(tasks, p)[i] == rest[i] && rest[i] in init;
    }
  }
}

=== FILE: theme.dfy ===
/** The theme context and the small core-feature demos around it: the
    light/dark toggle, the `useTheme` guard, the keyed list with add and
    remove, and the view chosen by user type. List ids come from the clock
    and are a parameter. */
module Theme {
  import opened JsString
  import opened JsArray

  /** The theme is stored as its name. */
  function ToggleTheme(theme: string): (r: string)
    ensures theme == "light" ==> r == "dark"
    ensures theme != "light" ==> r == "light"
  {
    if theme == "light" then "dark" else "light"
  }

  const InitialTheme := "light"

  /** Toggling twice restores exactly the two theme names, and any other
      name becomes "light". */
  lemma ToggleTwice(theme: string)
    ensures ToggleTheme(ToggleTheme(theme)) == theme <==> theme == "light" || theme == "dark"
    ensures theme != "light" && theme != "dark" ==> ToggleTheme(ToggleTheme(theme)) == "dark"
  {
  }

  datatype ThemeContext = ThemeContext(theme: string)

  /** What a consumer gets from `useTheme`: the provider's value, or the
      error it throws outside a provider. */
  datatype UseThemeResult = Provided(context: ThemeContext) | Thrown(message: string)

  const OutsideProvider := "useTheme must be used within a ThemeProvider"

  datatype Provider = NoProvider | InProvider(value: ThemeContext)

  function UseTheme(p: Provider): (r: UseThemeResult)
    ensures p.NoProvider? <==> r == Thrown(OutsideProvider)
    ensures p.InProvider? ==> r == Provided(p.value)
  {
    match p
    case NoProvider => Thrown(OutsideProvider)
    case InProvider(v) => Provided(v)
  }

  // ---------------------------------------------------------------------
  // Lists and keys
  // ---------------------------------------------------------------------

  datatype Entry = Entry(id: int, text: string)

  const InitialEntries: seq<Entry> := [Entry(1, "Learn React"), Entry(2, "Build an app"), Entry(3, "Deploy to production")]

  /** `addItem` with `Date.now()` = `now`: blank text changes nothing;
      otherwise one entry with the untrimmed text is appended and the input
      is cleared. */
  function AddEntry(items: seq<Entry>, input: string, now: int): (r: (seq<Entry>, string))
    ensures IsBlank(input) ==> r == (items, input)
    ensures !IsBlank(input) ==> r.0 == items + [Entry(now, input)] && r.1 == ""
  {
    if IsBlank(input) then (items, input) else (items + [Entry(now, input)], "")
  }

  function IdIsNot(id: int): Entry -> bool {
    (e: Entry) => e.id != id
  }

  /** `removeItem(id)`: the entries with other ids, in order, and never
      more entries than before. */
  function RemoveEntry(items: seq<Entry>, id: int): (r: seq<Entry>)
    ensures forall i :: 0 <= i < |r| ==> r[i].id != id && r[i] in items
    ensures forall i :: 0 <= i < |items| && items[i].id != id ==> items[i] in r
    ensures |r| <= |items|
  {
    Filter(items, IdIsNot(id))
  }

  /** Removing an id twice is removing it once. */
  lemma RemoveEntryIdempotent(items: seq<Entry>, id: int)
    ensures RemoveEntry(RemoveEntry(items, id), id) == RemoveEntry(items, id)
  {
    FilterKeepsAll(RemoveEntry(items, id), IdIsNot(id));
  }

  // ---------------------------------------------------------------------
  // Conditional rendering
  // ---------------------------------------------------------------------

  datatype Dashboard = FullAccess | LimitedAccess | ReadOnly

  /** "admin" sees the full dashboard, "user" the limited one, and any other
      user type the read-only guest view. */
  function ViewFor(userType: string): (r: Dashboard)
    ensures r == FullAccess <==> userType == "admin"
    ensures r == LimitedAccess <==> userType == "user"
    ensures r == ReadOnly <==> userType != "admin" && userType != "user"
  {
    if userType == "admin" then FullAccess else if userType == "user" then LimitedAccess else ReadOnly
  }
}

=== FILE: virtual_list.dfy ===
/** The virtual-list demo: a fixed-height list of generated items that can
    be filtered by text, and a variable-height list whose item tops come
    from a prefix-sum table and a binary search. The item heights, random in
    the demo, are a parameter here. */
module VirtualList {
  import opened Optional
  import opened JsString
  import opened JsArray
  import opened Windowing

  datatype Item = Item(id: int, text: string, height: nat)

  const FixedItemHeight := 40
  const ContainerHeight := 400
  const Overscan := 5

  /** `generateItems`: item i has id i, text "Item i+1" and the i-th height. */
  function GenerateItems(heights: seq<nat>): (items: seq<Item>)
    ensures |items| == |heights|
    ensures forall i :: 0 <= i < |items| ==> items[i].id == i && items[i].height == heights[i]
    ensures Distinct(items)
  {
    seq(|heights|, i requires 0 <= i < |heights| => Item(i, "Item " + Decimal(i + 1), heights[i]))
  }

  /** The filter test: the lower-cased text contains the lower-cased query. */
  function TextMatches(query: string): Item -> bool
  {
    (item: Item) => Includes(Lower(item.text), Lower(query))
  }

  /** `filter ? items.filter(...) : items`. The empty query takes the
      short cut, which agrees with filtering, since every text includes "". */
  function FilterItems(items: seq<Item>, query: string): (r: seq<Item>)
    ensures r == Filter(items, TextMatches(query))
    ensures query == "" ==> r == items
    ensures forall i :: 0 <= i < |r| ==> r[i] in items && Includes(Lower(r[i].text), Lower(query))
    ensures forall i :: 0 <= i < |items| && Includes(Lower(items[i].text), Lower(query)) ==> items[i] in r
  {
    if query != "" then Filter(items, TextMatches(query))
    else
      forall i | 0 <= i < |items| ensures TextMatches(query)(items[i]) {
        IncludesEmpty(Lower(items[i].text));
      }
      FilterKeepsAll(items, TextMatches(query));
      items
  }

  /** Matching ignores case: two queries that lower-case alike select the
      same items. */
  lemma FilterIgnoresCase(items: seq<Item>, q1: string, q2: string)
    requires Lower(q1) == Lower(q2)
    ensures FilterItems(items, q1) == FilterItems(items, q2)
  {
    FilterCongruent(items, TextMatches(q1), TextMatches(q2));
  }

  /** A filtered fixed-height list with rows `h` pixels high. The range
      stays inside the filtered list, only matching items are rendered, and
      with a non-negative scroll offset the k-th rendered item is the
      filtered item at `startIndex + k`, placed at `(startIndex + k) * h`. */
  function FilteredWindow(items: seq<Item>, query: string, h: int, containerHeight: int, overscan: int, scrollTop: int)
    : (v: View<Item>)
    requires Distinct(items) && h > 0 && containerHeight >= 0 && overscan >= 0
    ensures 0 <= v.range.startIndex && v.range.endIndex <= |FilterItems(items, query)| - 1
    ensures |v.tops| == |v.visible|
    ensures forall k :: 0 <= k < |v.visible| ==> v.visible[k] in items && TextMatches(query)(v.visible[k])
    ensures scrollTop >= 0 ==> PlacedAt(v, FilterItems(items, query), h)
    ensures CoversViewport(v.range, |FilterItems(items, query)|, h, containerHeight, scrollTop)
  {
    var f := FilterItems(items, query);
    var v := FixedWindow(f, h, containerHeight, overscan, scrollTop);
    FilteredWindowFacts(items, query, h, containerHeight, overscan, scrollTop, f, v);
    v
  }

  lemma FilteredWindowFacts(items: seq<Item>, query: string, h: int, containerHeight: int, overscan: int,
                            scrollTop: int, f: seq<Item>, v: View<Item>)
    requires Distinct(items) && h > 0 && containerHeight >= 0 && overscan >= 0
    requires f == FilterItems(items, query)
    requires v == FixedWindow(f, h, containerHeight, overscan, scrollTop)
    ensures forall k :: 0 <= k < |v.visible| ==> v.visible[k] in items && TextMatches(query)(v.visible[k])
    ensures scrollTop >= 0 ==> PlacedAt(v, f, h)
  {
    FilterDistinct(items, TextMatches(query));
    forall k | 0 <= k < |v.visible| ensures v.visible[k] in items && TextMatches(query)(v.visible[k]) {
      FilterMember(items, TextMatches(query), v.visible[k]);
    }
  }

  /** The demo's fixed-height list: 40px rows, a 400px viewport and an
      overscan of 5. */
  function FixedHeightList(items: seq<Item>, query: string, scrollTop: int): (v: View<Item>)
    requires Distinct(items)
    ensures |v.tops| == |v.visible|
    ensures forall k :: 0 <= k < |v.visible| ==> v.visible[k] in items && TextMatches(query)(v.visible[k])
    ensures scrollTop >= 0 ==> PlacedAt(v, FilterItems(items, query), 40)
    ensures CoversViewport(v.range, |FilterItems(items, query)|, 40, 400, scrollTop)
  {
    FilteredWindow(items, query, FixedItemHeight, ContainerHeight, Overscan, scrollTop)
  }

  /** `filteredItems.length * itemHeight`. */
  function FixedTotalHeight(items: seq<Item>, query: string): (t: int)
    ensures t == FixedItemHeight * |FilterItems(items, query)|
    ensures query == "" ==> t == FixedItemHeight * |items|
  {
    |FilterItems(items, query)| * FixedItemHeight
  }

  function Heights(items: seq<Item>): (hs: seq<nat>)
    ensures |hs| == |items|
    ensures forall i :: 0 <= i < |items| ==> hs[i] == items[i].height
  {
    seq(|items|, i requires 0 <= i < |items| => items[i].height)
  }

  /** The variable-height list: a 400px viewport with an overscan of 5 over
      the position table of the item heights. */
  method VariableHeightList(items: seq<Item>, scrollTop: int) returns (v: View<Item>, totalHeight: Option<int>)
    requires Distinct(items)
    ensures totalHeight.Some? <==> |items| > 0
    ensures totalHeight.Some? ==> totalHeight.value == Sum(Heights(items))
    ensures 0 <= v.range.startIndex && v.range.endIndex <= |items| - 1
    ensures |v.tops| == |v.visible|
    ensures scrollTop >= 0 ==>
      && v.range.startIndex <= v.range.endIndex + 1
      && (|items| > 0 ==> v.range.startIndex <= v.range.endIndex)
      && v.visible == items[v.range.startIndex..v.range.endIndex + 1]
      && (forall k :: 0 <= k < |v.visible| ==> v.tops[k] == Positions(Heights(items))[v.range.startIndex + k])
  {
    var hs := Heights(items);
    v := VariableWindow(items, hs, ContainerHeight, Overscan, scrollTop);
    totalHeight := TotalHeight(hs);
  }

  /** The worked example: heights 50, 100, 75, 60, 90 give tops 0, 50, 150,
      225, 285 and a total of 375; pixels 160 and 210 both lie in item 2. */
  lemma VariableExample()
    ensures Positions([50, 100, 75, 60, 90]) == [0, 50, 150, 225, 285]
    ensures TotalHeight([50, 100, 75, 60, 90]) == Some(375)
    ensures IsIndexAt([0, 50, 150, 225, 285], 160, 2) && IsIndexAt([0, 50, 150, 225, 285], 210, 2)
  {
    var hs: seq<nat> := [50, 100, 75, 60, 90];
    var pos := Positions(hs);
    assert pos[1] == 50 && pos[2] == 150 && pos[3] == 225 && pos[4] == 285;
  }
}

=== FILE: windowing.dfy ===
/** List virtualisation ("windowing"): which items of a long list must be
    rendered for a scroll offset, and where each of them is placed. The
    fixed-height variant is closed-form; the variable-height variant keeps a
    table of item tops (a prefix sum of the heights) and finds the item at a
    pixel offset by binary search. */
module Windowing {
  import opened Optional
  import opened JsArray

  /** The inclusive index range `[startIndex, endIndex]` to render. */
  datatype Range = Range(startIndex: int, endIndex: int)

  function Max(a: int, b: int): int { if a < b then b else a }
  function Min(a: int, b: int): int { if a < b then a else b }

  /** `items.slice(startIndex, endIndex + 1)`. */
  function VisibleItems<T>(items: seq<T>, r: Range): seq<T>
  {
    Slice(items, r.startIndex, r.endIndex + 1)
  }

  // ---------------------------------------------------------------------
  // Fixed height
  // ---------------------------------------------------------------------

  /** `startIndex = max(0, floor(scrollTop / h) - overscan)` and
      `endIndex = min(count - 1, floor((scrollTop + containerHeight) / h) + overscan)`.
      Dafny's `/` with a positive divisor rounds towards minus infinity, as
      `Math.floor` of the quotient does. */
  function FixedRange(count: nat, scrollTop: int, itemHeight: int, containerHeight: int, overscan: int): (r: Range)
    requires itemHeight > 0
    ensures r.startIndex >= 0
    ensures r.endIndex <= count - 1
    ensures count == 0 && scrollTop >= 0 && containerHeight >= 0 && overscan >= 0 ==> r.endIndex == -1
  {
    Range(Max(0, scrollTop / itemHeight - overscan),
          Min(count - 1, (scrollTop + containerHeight) / itemHeight + overscan))
  }

  lemma MulLessCancel(a: int, b: int, h: int)
    requires h > 0
    requires a * h < b * h
    ensures a < b
  {
    assert (b - a) * h == b * h - a * h;
  }

  /** An item overlapping the viewport is never left out of the fixed range:
      item k occupies pixels [k*h, (k+1)*h), the viewport
      [scrollTop, scrollTop + containerHeight). */
  lemma FixedRangeCovers(count: nat, scrollTop: int, h: int, containerHeight: int, overscan: int, k: int)
    requires h > 0 && overscan >= 0
    requires 0 <= k < count
    requires k * h < scrollTop + containerHeight
    requires scrollTop < (k + 1) * h
    ensures FixedRange(count, scrollTop, h, containerHeight, overscan).startIndex <= k
    ensures k <= FixedRange(count, scrollTop, h, containerHeight, overscan).endIndex
  {
    var q := scrollTop / h;
    assert q * h <= scrollTop by {
      assert scrollTop == q * h + scrollTop % h;
    }
    MulLessCancel(q, k + 1, h);
    var q' := (scrollTop + containerHeight) / h;
    assert k * h < (q' + 1) * h by {
      assert scrollTop + containerHeight == q' * h + (scrollTop + containerHeight) % h;
      assert (q' + 1) * h == q' * h + h;
    }
    MulLessCancel(k, q' + 1, h);
  }

  /** With a non-negative scroll offset the rendered slice is exactly
      `items[startIndex..endIndex]` (inclusive), and empty when the list is
      empty or the range is inverted. */
  lemma FixedVisibleItems<T>(items: seq<T>, scrollTop: int, h: int, containerHeight: int, overscan: int)
    requires h > 0 && scrollTop >= 0 && containerHeight >= 0 && overscan >= 0
    ensures var r := FixedRange(|items|, scrollTop, h, containerHeight, overscan);
      && (r.startIndex <= r.endIndex ==> VisibleItems(items, r) == items[r.startIndex..r.endIndex + 1])
      && (r.startIndex > r.endIndex ==> VisibleItems(items, r) == [])
      && (|items| == 0 ==> VisibleItems(items, r) == [])
  {
    var r := FixedRange(|items|, scrollTop, h, containerHeight, overscan);
    assert (scrollTop + containerHeight) / h >= 0;
  }

  /** The index in the full list that a rendered item's position is
      computed from, `startIndex + visibleItems.indexOf(item)`. */
  function Offset<T(==)>(visible: seq<T>, r: Range, k: nat): int
    requires k < |visible|
  {
    r.startIndex + IndexOf(visible, visible[k])
  }

  /** When the items are distinct objects, `indexOf` finds each rendered
      item at its own place in the slice, so its offset is `startIndex + k`. */
  lemma OffsetInSlice<T>(items: seq<T>, r: Range, k: nat)
    requires Distinct(items)
    requires 0 <= r.startIndex <= r.endIndex + 1 <= |items|
    requires k < r.endIndex + 1 - r.startIndex
    ensures Offset(items[r.startIndex..r.endIndex + 1], r, k) == r.startIndex + k
  {
    var visible := items[r.startIndex..r.endIndex + 1];
    assert Distinct(visible) by {
      forall i, j | 0 <= i < j < |visible| ensures visible[i] != visible[j] {
        assert visible[i] == items[r.startIndex + i] && visible[j] == items[r.startIndex + j];
      }
    }
    IndexOfDistinct(visible, k);
  }

  /** The `top` a fixed-height list gives the k-th rendered item. */
  function FixedTop<T(==)>(visible: seq<T>, r: Range, k: nat, h: int): int
    requires k < |visible|
  {
    Offset(visible, r, k) * h
  }

  /** What a virtualised list renders: the index range, the rendered
      items, and the `top` offset of each rendered item. */
  datatype View<T> = View(range: Range, visible: seq<T>, tops: seq<int>)

  /** Every row of height h that overlaps the viewport, the pixels from
      `scrollTop` up to `scrollTop + containerHeight`, lies in the range. */
  predicate CoversViewport(r: Range, count: int, h: int, containerHeight: int, scrollTop: int) {
    forall k :: 0 <= k < count && k * h < scrollTop + containerHeight && scrollTop < (k + 1) * h ==>
      r.startIndex <= k <= r.endIndex
  }

  /** Each rendered item is the list item at its offset from `startIndex`,
      and its top is that offset times the row height `h`. */
  predicate PlacedAt<T(==)>(v: View<T>, items: seq<T>, h: int) {
    && |v.tops| == |v.visible|
    && 0 <= v.range.startIndex
    && forall k :: 0 <= k < |v.visible| ==>
      v.range.startIndex + k < |items| && v.visible[k] == items[v.range.startIndex + k]
      && v.tops[k] == (v.range.startIndex + k) * h
  }

  /** The view a fixed-height list renders: the range, its slice, and
      `(startIndex + visibleItems.indexOf(item)) * h` for each rendered item. */
  function FixedView<T(==)>(items: seq<T>, h: int, containerHeight: int, overscan: int, scrollTop: int): View<T>
    requires h > 0
  {
    var r := FixedRange(|items|, scrollTop, h, containerHeight, overscan);
    var visible := VisibleItems(items, r);
    View(r, visible, FixedTops(visible, r, h))
  }

  function FixedTops<T(==)>(visible: seq<T>, r: Range, h: int): (tops: seq<int>)
    ensures |tops| == |visible|
    ensures forall k :: 0 <= k < |visible| ==> tops[k] == FixedTop(visible, r, k, h)
  {
    seq(|visible|, k requires 0 <= k < |visible| => FixedTop(visible, r, k, h))
  }

  /** The fixed-height window over `items`. The range stays inside the
      list; with a non-negative scroll offset the rendered slice is exactly
      the inclusive range (empty for an empty list), every item overlapping
      the viewport is rendered, and, the items being distinct objects, each
      rendered item sits at its own offset in the full list. */
  function FixedWindow<T(==)>(items: seq<T>, h: int, containerHeight: int, overscan: int, scrollTop: int): (v: View<T>)
    requires h > 0 && containerHeight >= 0 && overscan >= 0
    ensures 0 <= v.range.startIndex && v.range.endIndex <= |items| - 1
    ensures |v.tops| == |v.visible|
    ensures scrollTop >= 0 && v.range.startIndex <= v.range.endIndex ==>
      v.visible == items[v.range.startIndex..v.range.endIndex + 1]
    ensures scrollTop >= 0 && (v.range.startIndex > v.range.endIndex || |items| == 0) ==> v.visible == []
    ensures scrollTop >= 0 && Distinct(items) ==> PlacedAt(v, items, h)
    ensures forall k :: 0 <= k < |items| && k * h < scrollTop + containerHeight && scrollTop < (k + 1) * h ==>
      v.range.startIndex <= k <= v.range.endIndex
    ensures forall k :: 0 <= k < |v.visible| ==> v.visible[k] in items
  {
    var v := FixedView(items, h, containerHeight, overscan, scrollTop);
    FixedWindowFacts(items, h, containerHeight, overscan, scrollTop, v);
    v
  }

  lemma FixedWindowFacts<T>(items: seq<T>, h: int, containerHeight: int, overscan: int, scrollTop: int, v: View<T>)
    requires h > 0 && containerHeight >= 0 && overscan >= 0
    requires v == FixedView(items, h, containerHeight, overscan, scrollTop)
    ensures 0 <= v.range.startIndex && v.range.endIndex <= |items| - 1
    ensures |v.tops| == |v.visible|
    ensures scrollTop >= 0 && v.range.startIndex <= v.range.endIndex ==>
      v.visible == items[v.range.startIndex..v.range.endIndex + 1]
    ensures scrollTop >= 0 && (v.range.startIndex > v.range.endIndex || |items| == 0) ==> v.visible == []
    ensures scrollTop >= 0 && Distinct(items) ==> PlacedAt(v, items, h)
    ensures forall k :: 0 <= k < |items| && k * h < scrollTop + containerHeight && scrollTop < (k + 1) * h ==>
      v.range.startIndex <= k <= v.range.endIndex
    ensures forall k :: 0 <= k < |v.visible| ==> v.visible[k] in items
  {
    var r := FixedRange(|items|, scrollTop, h, containerHeight, overscan);
    assert v.range == r && v.visible == VisibleItems(items, r);
    if scrollTop >= 0 {
      FixedVisibleItems(items, scrollTop, h, containerHeight, overscan);
      if Distinct(items) {
        FixedWindowPlaced(items, h, containerHeight, overscan, scrollTop, v);
      }
    }
    FixedWindowCovers(items, h, containerHeight, overscan, scrollTop, r);
    SliceMembers(items, r.startIndex, r.endIndex + 1);
  }

  /** The placement part of the fixed window: with distinct items, the k-th
      rendered item is item `startIndex + k`, placed at that offset. */
  lemma FixedWindowPlaced<T>(items: seq<T>, h: int, containerHeight: int, overscan: int, scrollTop: int, v: View<T>)
    requires h > 0 && containerHeight >= 0 && overscan >= 0 && scrollTop >= 0 && Distinct(items)
    requires v == FixedView(items, h, containerHeight, overscan, scrollTop)
    ensures PlacedAt(v, items, h)
  {
    var r := FixedRange(|items|, scrollTop, h, containerHeight, overscan);
    assert v.range == r && v.visible == VisibleItems(items, r) && v.tops == FixedTops(v.visible, r, h);
    FixedVisibleItems(items, scrollTop, h, containerHeight, overscan);
    if r.startIndex <= r.endIndex {
      var visible := items[r.startIndex..r.endIndex + 1];
      assert v.visible == visible;
      FixedTopsAreOffsets(items, r, h);
      forall k | 0 <= k < |visible|
        ensures r.startIndex + k < |items| && visible[k] == items[r.startIndex + k]
        && v.tops[k] == (r.startIndex + k) * h
      {
        assert v.tops[k] == FixedTop(visible, r, k, h);
      }
    } else {
      assert v.visible == [];
    }
  }

  /** The covering part of the fixed window, item by item. */
  lemma FixedWindowCovers<T>(items: seq<T>, h: int, containerHeight: int, overscan: int, scrollTop: int, r: Range)
    requires h > 0 && overscan >= 0
    requires r == FixedRange(|items|, scrollTop, h, containerHeight, overscan)
    ensures forall k :: 0 <= k < |items| && k * h < scrollTop + containerHeight && scrollTop < (k + 1) * h ==>
      r.startIndex <= k <= r.endIndex
  {
    forall k | 0 <= k < |items| && k * h < scrollTop + containerHeight && scrollTop < (k + 1) * h
      ensures r.startIndex <= k <= r.endIndex
    {
      FixedRangeCovers(|items|, scrollTop, h, containerHeight, overscan, k);
    }
  }

  lemma FixedTopsAreOffsets<T>(items: seq<T>, r: Range, h: int)
    requires Distinct(items)
    requires 0 <= r.startIndex <= r.endIndex + 1 <= |items|
    ensures var visible := items[r.startIndex..r.endIndex + 1];
      forall k :: 0 <= k < |visible| ==> FixedTop(visible, r, k, h) == (r.startIndex + k) * h
  {
    var visible := items[r.startIndex..r.endIndex + 1];
    forall k | 0 <= k < |visible| ensures FixedTop(visible, r, k, h) == (r.startIndex + k) * h {
      OffsetInSlice(items, r, k);
    }
  }

  // ---------------------------------------------------------------------
  // Variable height
  // ---------------------------------------------------------------------

  /** The table of item tops built by the `reduce` over the items: each new
      entry is the previous entry plus the previous item's height. */
  function Positions(hs: seq<nat>): (pos: seq<int>)
    ensures |pos| == |hs|
    ensures |hs| > 0 ==> pos[0] == 0
    ensures forall i :: 0 < i < |hs| ==> pos[i] == pos[i - 1] + hs[i - 1]
    decreases |hs|
  {
    if |hs| == 0 then []
    else
      var acc := Positions(hs[..|hs| - 1]);
      var i := |hs| - 1;
      acc + [if i > 0 then acc[i - 1] + hs[i - 1] else 0]
  }

  /** Entry i of the table is the sum of the heights of the items above i. */
  lemma {:induction false} PositionsArePrefixSums(hs: seq<nat>, i: nat)
    requires i < |hs|
    ensures Positions(hs)[i] == Sum(hs[..i])
    decreases i
  {
    if i > 0 {
      PositionsArePrefixSums(hs, i - 1);
      assert hs[..i] == hs[..i - 1] + [hs[i - 1]];
      assert hs[..i][..i - 1] == hs[..i - 1];
    }
  }

  predicate Sorted(pos: seq<int>) {
    forall i, j :: 0 <= i <= j < |pos| ==> pos[i] <= pos[j]
  }

  predicate StrictlyIncreasing(pos: seq<int>) {
    forall i, j :: 0 <= i < j < |pos| ==> pos[i] < pos[j]
  }

  lemma {:induction false} PositionsNonDecreasing(hs: seq<nat>, i: nat, j: nat)
    requires i <= j < |hs|
    ensures Positions(hs)[i] <= Positions(hs)[j]
    decreases j - i
  {
    if i < j {
      PositionsNonDecreasing(hs, i, j - 1);
    }
  }

  lemma {:induction false} PositionsIncreasing(hs: seq<nat>, i: nat, j: nat)
    requires forall k :: 0 <= k < |hs| ==> hs[k] > 0
    requires i < j < |hs|
    ensures Positions(hs)[i] < Positions(hs)[j]
    decreases j - i
  {
    if i + 1 < j {
      PositionsIncreasing(hs, i, j - 1);
    }
  }

  /** Heights are never negative, so the table is sorted; with positive
      heights its entries strictly increase. */
  lemma PositionsSorted(hs: seq<nat>)
    ensures Sorted(Positions(hs))
    ensures (forall k :: 0 <= k < |hs| ==> hs[k] > 0) ==> StrictlyIncreasing(Positions(hs))
  {
    forall i, j | 0 <= i <= j < |hs| ensures Positions(hs)[i] <= Positions(hs)[j] {
      PositionsNonDecreasing(hs, i, j);
    }
    if forall k :: 0 <= k < |hs| ==> hs[k] > 0 {
      forall i, j | 0 <= i < j < |hs| ensures Positions(hs)[i] < Positions(hs)[j] {
        PositionsIncreasing(hs, i, j);
      }
    }
  }

  /** `itemPositions[length - 1] + items[length - 1].height`; reading the last
      item of an empty list fails, which is `None` here. The total is the sum
      of all heights. */
  function TotalHeight(hs: seq<nat>): (t: Option<int>)
    ensures t.None? <==> |hs| == 0
    ensures t.Some? ==> t.value == Sum(hs)
  {
    if |hs| == 0 then None
    else
      var pos := Positions(hs);
      var last := |hs| - 1;
      PositionsArePrefixSums(hs, last);
      assert hs == hs[..last] + [hs[last]];
      Some(pos[last] + hs[last])
  }

  /** Item i is the item at pixel p: its top is at or above p, and the next
      item (if any) starts below p. */
  predicate IsIndexAt(pos: seq<int>, p: int, i: int) {
    0 <= i < |pos| && pos[i] <= p && (i == |pos| - 1 || p < pos[i + 1])
  }

  /** `findItemIndexAtPosition`: binary search for the item at pixel `p`.
      A position above the first item (or an empty table) falls through the
      loop to 0. */
  method FindItemIndexAtPosition(pos: seq<int>, p: int) returns (idx: int)
    requires Sorted(pos)
    ensures |pos| > 0 && pos[0] <= p ==> IsIndexAt(pos, p, idx)
    ensures |pos| == 0 || p < pos[0] ==> idx == 0
  {
    var low := 0;
    var high := |pos| - 1;
    while low <= high
      invariant 0 <= low <= |pos|
      invariant -1 <= high < |pos|
      invariant forall j :: 0 < j <= low ==> j < |pos| && pos[j] <= p
      invariant forall j :: high < j < |pos| ==> p < pos[j]
      invariant |pos| > 0 && pos[0] <= p ==> low <= high
      decreases high - low
    {
      var mid := (low + high) / 2;
      if pos[mid] <= p && (mid == |pos| - 1 || pos[mid + 1] > p) {
        return mid;
      } else if pos[mid] > p {
        high := mid - 1;
      } else {
        low := mid + 1;
      }
    }
    return 0;
  }

  /** The item found at a lower pixel is never below the item found at a
      higher one. */
  lemma IndexAtMonotone(pos: seq<int>, p1: int, i1: int, p2: int, i2: int)
    requires Sorted(pos)
    requires IsIndexAt(pos, p1, i1) && IsIndexAt(pos, p2, i2)
    requires p1 <= p2
    ensures i1 <= i2
  {
    if i2 < |pos| - 1 {
      assert pos[i1] <= p1 <= p2 < pos[i2 + 1];
    }
  }

  /** Items a and b are the items at the viewport's top and bottom pixels. */
  predicate AtViewportEdges(pos: seq<int>, scrollTop: int, containerHeight: int, a: int, b: int) {
    IsIndexAt(pos, scrollTop, a) && IsIndexAt(pos, scrollTop + containerHeight, b)
  }

  /** The variable-height range: the items at `scrollTop` and at
      `scrollTop + containerHeight`, widened by `overscan` on each side and
      clamped to the list. Every item overlapping the viewport is inside it. */
  method VariableRange(hs: seq<nat>, scrollTop: int, containerHeight: int, overscan: int) returns (r: Range)
    ensures r.startIndex >= 0 && r.endIndex <= |hs| - 1
    ensures scrollTop >= 0 && containerHeight >= 0 && |hs| > 0 ==>
      exists a, b :: AtViewportEdges(Positions(hs), scrollTop, containerHeight, a, b)
        && r == Range(Max(0, a - overscan), Min(|hs| - 1, b + overscan))
    ensures scrollTop >= 0 && containerHeight >= 0 && overscan >= 0 && |hs| > 0 ==>
      r.startIndex <= r.endIndex
    ensures scrollTop >= 0 && containerHeight >= 0 && overscan >= 0 && |hs| == 0 ==>
      r == Range(0, -1)
    ensures scrollTop >= 0 && containerHeight >= 0 && overscan >= 0 ==>
      forall i :: 0 <= i < |hs| && Positions(hs)[i] < scrollTop + containerHeight && scrollTop < Positions(hs)[i] + hs[i] ==>
        r.startIndex <= i <= r.endIndex
  {
    var pos := Positions(hs);
    PositionsSorted(hs);
    var a := FindItemIndexAtPosition(pos, scrollTop);
    var b := FindItemIndexAtPosition(pos, scrollTop + containerHeight);
    r := Range(Max(0, a - overscan), Min(|hs| - 1, b + overscan));
    if scrollTop >= 0 && containerHeight >= 0 && |hs| > 0 {
      assert AtViewportEdges(pos, scrollTop, containerHeight, a, b);
    }
    if scrollTop >= 0 && containerHeight >= 0 && overscan >= 0 && |hs| > 0 {
      IndexAtMonotone(pos, scrollTop, a, scrollTop + containerHeight, b);
      forall i | 0 <= i < |hs| && pos[i] < scrollTop + containerHeight && scrollTop < pos[i] + hs[i]
        ensures a <= i <= b
      {
        if i + 1 < |hs| {
          assert pos[a] <= scrollTop < pos[i + 1];
        }
        if b + 1 < |hs| {
          assert pos[i] < scrollTop + containerHeight < pos[b + 1];
        }
      }
    }
  }

  /** The variable-height window over `items`, whose heights are `hs`. The
      range is ordered and inside the list, every item overlapping the
      viewport is rendered, and, the items being distinct objects, each
      rendered item is placed at its own entry of the position table. */
  method VariableWindow<T(==)>(items: seq<T>, hs: seq<nat>, containerHeight: int, overscan: int, scrollTop: int)
    returns (v: View<T>)
    requires |hs| == |items|
    requires containerHeight >= 0 && overscan >= 0
    ensures 0 <= v.range.startIndex && v.range.endIndex <= |items| - 1
    ensures |v.tops| == |v.visible|
    ensures scrollTop >= 0 ==>
      && v.range.startIndex <= v.range.endIndex + 1
      && (|items| > 0 ==> v.range.startIndex <= v.range.endIndex)
      && v.visible == items[v.range.startIndex..v.range.endIndex + 1]
    ensures scrollTop >= 0 && Distinct(items) ==>
      forall k :: 0 <= k < |v.visible| ==> v.tops[k] == Positions(hs)[v.range.startIndex + k]
    ensures scrollTop >= 0 ==>
      forall i :: 0 <= i < |items| && Positions(hs)[i] < scrollTop + containerHeight && scrollTop < Positions(hs)[i] + hs[i] ==>
        v.range.startIndex <= i <= v.range.endIndex
  {
    var pos := Positions(hs);
    var r := VariableRange(hs, scrollTop, containerHeight, overscan);
    var visible := VisibleItems(items, r);
    var tops := seq(|visible|, k requires 0 <= k < |visible| => VariableTop(visible, r, k, pos));
    v := View(r, visible, tops);
    if scrollTop >= 0 {
      assert 0 <= r.startIndex <= r.endIndex + 1 <= |items|;
      assert visible == items[r.startIndex..r.endIndex + 1];
      if Distinct(items) {
        VariableTopsAreOffsets(items, r, pos);
      }
    }
  }

  /** With distinct items, the k-th rendered item of a variable-height list
      takes the table entry at `startIndex + k`. */
  lemma VariableTopsAreOffsets<T>(items: seq<T>, r: Range, pos: seq<int>)
    requires Distinct(items)
    requires 0 <= r.startIndex <= r.endIndex + 1 <= |items| == |pos|
    ensures var visible := items[r.startIndex..r.endIndex + 1];
      forall k :: 0 <= k < |visible| ==> VariableTop(visible, r, k, pos) == pos[r.startIndex + k]
  {
    var visible := items[r.startIndex..r.endIndex + 1];
    forall k | 0 <= k < |visible| ensures VariableTop(visible, r, k, pos) == pos[r.startIndex + k] {
      OffsetInSlice(items, r, k);
    }
  }

  /** The `top` a variable-height list gives the k-th rendered item: the
      position-table entry at its offset in the full list. */
  function VariableTop<T(==)>(visible: seq<T>, r: Range, k: nat, pos: seq<int>): int
    requires k < |visible|
  {
    var j := Offset(visible, r, k);
    if 0 <= j < |pos| then pos[j] else 0
  }
}
